=== FILE: README.md ===
# Real-estate app: favourites, routes and screen state

A Dafny model of the logic in a small Jetpack Compose real-estate app. Almost all of the app is
layout. What is modelled here is the set of deterministic rules the screens rely on:

- **The favourites store** (`FavoritesViewModel`). It is a list of `Property` records keyed by
  `id`, starting empty. `toggleFavorite` removes every entry with the argument's id, or appends
  the argument when there is none. The `StateFlow` is modelled as the list value itself.
- **The property catalog and detail lookup.** The detail screen finds a listing by comparing the
  decimal text of its id with the raw route argument. The model therefore has Kotlin's
  `Int.toString` and, for the navigation library's argument parsing, `Integer.parseInt`
  (module `Decimal`).
- **Routes.** These are the `Screen` route constants and the detail-route template. Each screen
  builds the text `"property_detail/" + id`, and the navigation host coerces the argument back
  to a string.
- **The navigation host** (`MainNavigation`). It holds the four registered destinations, route
  resolution with one integer placeholder, and the back stack as a sequence of entries. A tab
  switch pops up to the start destination and then navigates single-top. `currentRoute` is the
  template of the top entry.
- **The bottom bar's tab selection and click emission.**
- **The screens' projections of the store.** These are the home feed with its per-card
  favourite flag, the favourites list or its empty message, the profile's "My Favorites"
  section, and the detail view with its not-found branch.
- **Smaller selectors.** These are the contact screen's agent selection, the notification
  screen's unread count, badge, empty state, unread dot and type styles, and the category row's
  single selection.

The store is passed explicitly to every screen function. The app gives each screen its own
`viewModel()` default, and whether those are one object is decided by the library's scoping,
so the model does not assume a single shared store. The cross-screen lemmas in `AppFlows`
assume the same list is handed to both screens and say so in their statements.

Some facts about the code that shape the model:

- The detail route template is `property_detail/{propertyId}`, and every screen builds
  `"property_detail/" + id`.
- The four-listing catalog is written out twice, in `HomeScreen.kt` and `PropertyDetailScreen.kt`.
  The model keeps both copies and proves them equal (`AppFlows.CatalogCopiesAgree`).
- The Profile route renders a placeholder text, not `ProfileScreen`.
- The detail argument is declared with the integer argument type, so a route whose last segment
  is not an integer matches no destination. It never reaches the detail screen as a lookup miss.

## Model

| member | source | states |
|---|---|---|
| Favorites.InitialFavorites | app/src/main/java/com/example/realestate/feature/favorites/FavoritesViewModel.kt:10 | The store starts with no entry for any id. |
| Favorites.HasId | app/src/main/java/com/example/realestate/feature/favorites/FavoritesViewModel.kt:15 | `any { it.id == id }` holds exactly when some position of the list carries the id. |
| Favorites.CountId | app/src/main/java/com/example/realestate/feature/favorites/FavoritesViewModel.kt:15-16 | The number of entries with an id is at most the length, and is zero exactly when no entry has that id. |
| Favorites.RemoveId | app/src/main/java/com/example/realestate/feature/favorites/FavoritesViewModel.kt:16 | `removeIf` leaves no entry with the id and shortens the list by exactly the number of such entries. |
| Favorites.RemoveIdKeepsOthers | app/src/main/java/com/example/realestate/feature/favorites/FavoritesViewModel.kt:16 | Removal keeps exactly the entries with another id, and they stay in their original relative order (the result is a subsequence). |
| Favorites.RemoveIdKeepsOthersId | app/src/main/java/com/example/realestate/feature/favorites/FavoritesViewModel.kt:16 | Two lists that agree after removing one id agree on the membership of every other id. |
| Favorites.Toggle | app/src/main/java/com/example/realestate/feature/favorites/FavoritesViewModel.kt:13-21 | Membership of the argument's id flips. When absent, the old list is kept and the argument is appended at the end. When present, the list gets shorter. Entries with other ids are the same before and after. |
| Favorites.RemoveIdAbsent | app/src/main/java/com/example/realestate/feature/favorites/FavoritesViewModel.kt:16 | Removing an id that no entry carries leaves the list unchanged. |
| Favorites.RemoveIdAppend | app/src/main/java/com/example/realestate/feature/favorites/FavoritesViewModel.kt:16-18 | Removal distributes over concatenation, so an appended entry with another id survives the removal of the id. |
| Favorites.RemoveIdIdempotent | app/src/main/java/com/example/realestate/feature/favorites/FavoritesViewModel.kt:16 | Removing the same id twice equals removing it once. |
| Favorites.ToggleUsesIdOnly | app/src/main/java/com/example/realestate/feature/favorites/FavoritesViewModel.kt:15-16 | Two properties with a stored id toggle to the same list, whatever their other fields, because membership and removal look only at `id`. |
| Favorites.ToggleTwiceAbsent | app/src/main/java/com/example/realestate/feature/favorites/FavoritesViewModel.kt:14-20 | Toggling an absent id twice gives back exactly the original list. |
| Favorites.ToggleTwicePresent | app/src/main/java/com/example/realestate/feature/favorites/FavoritesViewModel.kt:14-20 | Toggling a present id twice restores membership, but the entry moves to the end and becomes the argument value. |
| Favorites.CountIdDistinct | app/src/main/java/com/example/realestate/feature/favorites/FavoritesViewModel.kt:15-16 | With pairwise-distinct ids, an id that occurs occurs exactly once. |
| Favorites.RemoveIdKeepsDistinct | app/src/main/java/com/example/realestate/feature/favorites/FavoritesViewModel.kt:16 | Removal preserves pairwise-distinct ids. |
| Favorites.ToggleKeepsDistinct | app/src/main/java/com/example/realestate/feature/favorites/FavoritesViewModel.kt:15-18 | The store invariant: distinct ids stay distinct, and each toggle changes the length by exactly one, down when the id was present and up when it was absent. |
| Favorites.RemoveIdDistinctSplice | app/src/main/java/com/example/realestate/feature/favorites/FavoritesViewModel.kt:16 | With distinct ids, removing the id at position k deletes exactly that position. |
| Favorites.RemoveIdSplice | app/src/main/java/com/example/realestate/feature/favorites/FavoritesViewModel.kt:16 | Removing an id that only position k carries yields the entries before k followed by those after k. |
| Favorites.ToggleOrderScenario | app/src/main/java/com/example/realestate/feature/favorites/FavoritesViewModel.kt:13-21 | Toggling A, B, A, A from the empty store leaves `[B, A]`. |
| Favorites.ToggleFromEmptyScenario | app/src/main/java/com/example/realestate/feature/favorites/FavoritesViewModel.kt:13-21 | Toggling a property into the empty store gives the one-element list, and toggling it again empties the store. |
| PropertyDetailScreen.CatalogShape | app/src/main/java/com/example/realestate/feature/propertydetail/PropertyDetailScreen.kt:44-49 | The catalog has four listings with ids 1 to 4, pairwise distinct. |
| PropertyDetailScreen.FindIndex | app/src/main/java/com/example/realestate/feature/propertydetail/PropertyDetailScreen.kt:51 | `find` returns the first position whose id text equals the argument, or nothing when no position matches. |
| PropertyDetailScreen.Find | app/src/main/java/com/example/realestate/feature/propertydetail/PropertyDetailScreen.kt:51 | The lookup fails exactly when no listing's id text equals the argument. A hit is a listing whose id text equals it. |
| PropertyDetailScreen.FindOwnId | app/src/main/java/com/example/realestate/feature/propertydetail/PropertyDetailScreen.kt:51 | In a list with distinct ids, looking up an entry's own id text finds that entry. |
| PropertyDetailScreen.FindKeys | app/src/main/java/com/example/realestate/feature/propertydetail/PropertyDetailScreen.kt:44-51 | The lookup succeeds exactly for "1", "2", "3" and "4", each giving the listing at that position. Every other string ("", "0", "5", "01", "abc", ...) finds nothing. |
| PropertyDetailScreen.AnyIdEquals | app/src/main/java/com/example/realestate/feature/propertydetail/PropertyDetailScreen.kt:53 | `any { it.id == property?.id }` is true exactly when a listing was found and some favourite has its id. With no listing it is false. |
| PropertyDetailScreen.Render | app/src/main/java/com/example/realestate/feature/propertydetail/PropertyDetailScreen.kt:51-133 | Not-found is shown exactly when no listing matches. Otherwise the view shows the matching listing, a heart that is filled exactly when its id is stored, and a picture exactly when the drawable lookup is non-zero. |
| PropertyDetailScreen.HeartClick | app/src/main/java/com/example/realestate/feature/propertydetail/PropertyDetailScreen.kt:55-94 | With no listing the store is untouched (early return). Otherwise the found catalog entry is toggled: the stored entries with its id are removed, or the catalog entry is appended. |
| PropertyDetailScreen.HeartClickFlipsFlag | app/src/main/java/com/example/realestate/feature/propertydetail/PropertyDetailScreen.kt:53-96 | After the heart is tapped, the detail view's favourite flag is the negation of what it was. |
| HomeScreen.Cards | app/src/main/java/com/example/realestate/feature/home/HomeScreen.kt:77-78 | One card per listing, in order, flagged favourite exactly when some stored entry has the listing's id. |
| HomeScreen.Feed | app/src/main/java/com/example/realestate/feature/home/HomeScreen.kt:37-42 | The feed shows four cards for listings 1 to 4, with the favourite flag given by the store. |
| HomeScreen.HeartClick | app/src/main/java/com/example/realestate/feature/home/HomeScreen.kt:82 | The heart toggles exactly the card's listing: it is appended when its id is absent, and every entry with its id is removed when present. The card's membership flips and every other id's membership stays as it was. |
| HomeScreen.ViewDetailRoute | app/src/main/java/com/example/realestate/feature/home/HomeScreen.kt:84 | The route "View Detail" builds is the detail template with `{propertyId}` replaced by the id's decimal text. |
| Routes.DetailRoute | app/src/main/java/com/example/realestate/feature/home/HomeScreen.kt:84 | The route built for an id is the 16-character prefix `property_detail/` followed by the id's decimal text. |
| FavoritesScreen.View | app/src/main/java/com/example/realestate/feature/favorites/FavoritesScreen.kt:44-69 | The empty message is shown exactly when the store is empty. Otherwise there is one card per stored entry, in stored order, each with a filled heart. |
| FavoritesScreen.FilledCards | app/src/main/java/com/example/realestate/feature/favorites/FavoritesScreen.kt:62-65 | Each card is the stored entry at that position with `isFavorite = true`. |
| FavoritesScreen.HeartClick | app/src/main/java/com/example/realestate/feature/favorites/FavoritesScreen.kt:66 | Tapping a listed heart removes that entry's id from the store. With distinct ids, exactly that card disappears and the others keep their order. |
| FavoritesScreen.ViewDetailRoute | app/src/main/java/com/example/realestate/feature/favorites/FavoritesScreen.kt:68 | The route is `"property_detail/"` followed by the stored entry's id text. |
| ProfileScreen.FavoritesSection | app/src/main/java/com/example/realestate/feature/profile/ProfileScreen.kt:136-157 | "My Favorites" is shown exactly when the store is non-empty. Its cards follow the stored order, and each opens the detail route of its own id. |
| ProfileScreen.FavoriteCards | app/src/main/java/com/example/realestate/feature/profile/ProfileScreen.kt:151-155 | One card per stored entry, carrying that entry's detail route. |
| ProfileScreen.FavoritesOptionIsTabRoute | app/src/main/java/com/example/realestate/feature/profile/ProfileScreen.kt:118-121 | The Favorites option's route equals the Favorites tab's route, and that tab is on the bar. |
| Routes.RoutesDistinct | app/src/main/java/com/example/realestate/core/navigation/Screen.kt:9-13 | Different screens have different route strings. |
| Routes.BottomNavItemsAreTabs | app/src/main/java/com/example/realestate/core/navigation/Screen.kt:13-16 | The bar lists three screens, and a screen is on it exactly when it is not the detail screen. |
| Routes.BindTrailingPlaceholder | app/src/main/java/com/example/realestate/core/navigation/Screen.kt:13 | Replacing a trailing placeholder in a template with a value gives the literal prefix followed by the value. |
| Routes.DetailRouteBindsTemplate | app/src/main/java/com/example/realestate/feature/home/HomeScreen.kt:84 | The text the screens build equals the detail template with the placeholder bound. It splits into the 16-character prefix and the id's decimal text. |
| BottomNavBar.TabItems | app/src/main/java/com/example/realestate/ui/components/BottomNavBar.kt:34-35 | One item per screen, in order, selected exactly when the current route equals that screen's route. |
| BottomNavBar.Bar | app/src/main/java/com/example/realestate/ui/components/BottomNavBar.kt:16-38 | Home, Favorites and Profile in that order. Each tab is selected exactly when the current route equals that tab's own route, so at most one tab is selected, and none for a null route or the detail template. Some tab is selected exactly when the route is one of the three tab routes. |
| BottomNavBar.Click | app/src/main/java/com/example/realestate/ui/components/BottomNavBar.kt:34-38 | Clicking tab i emits the i-th bar screen, which is never the detail screen. |
| NavGraph.AppGraphRoutes | app/src/main/java/com/example/realestate/core/navigation/NavGraph.kt:52-71 | The host registers exactly the four `Screen` routes, in order, and starts at "home". |
| NavGraph.Match | app/src/main/java/com/example/realestate/core/navigation/NavGraph.kt:65-71 | A literal destination matches only its own route, with no arguments. A placeholder destination matches exactly its prefix followed by text that parses as an `Int`, binding the argument to the parsed value. |
| NavGraph.Resolve | app/src/main/java/com/example/realestate/core/navigation/NavGraph.kt:55-71 | A route resolves exactly when some registered destination matches it, and the result is a registered destination together with its match's arguments. |
| NavGraph.ResolveFirst | app/src/main/java/com/example/realestate/core/navigation/NavGraph.kt:55-71 | Resolution takes the first matching destination in registration order. |
| NavGraph.Navigate | app/src/main/java/com/example/realestate/core/navigation/NavGraph.kt:50-71 | Navigation fails with an unknown-route error exactly when nothing resolves. Otherwise it keeps the stack and pushes one entry of a registered destination, carrying exactly the arguments that destination binds from the route (so a detail route's entry holds its `propertyId`). |
| NavGraph.Back | app/src/main/java/com/example/realestate/feature/propertydetail/PropertyDetailScreen.kt:89 | Back drops the top entry when more than one remains, and otherwise leaves the stack as it is. |
| NavGraph.NavigateThenBack | app/src/main/java/com/example/realestate/feature/propertydetail/PropertyDetailScreen.kt:89 | Navigating and then going back restores the previous stack with its arguments. |
| NavGraph.CurrentRoute | app/src/main/java/com/example/realestate/core/navigation/NavGraph.kt:24 | The current route is absent exactly on an empty stack, and otherwise is the top entry's template, not the bound route. |
| NavGraph.LastIndexOfRoute | app/src/main/java/com/example/realestate/core/navigation/NavGraph.kt:35-36 | The index found is the topmost entry with the given template. Absence means no entry has it. |
| NavGraph.PopUpTo | app/src/main/java/com/example/realestate/core/navigation/NavGraph.kt:35-39 | `popUpTo` keeps the stack up to and including the topmost entry with the target route, and leaves the stack whole when no entry has it. The target itself is not popped. |
| NavGraph.NavigateToTab | app/src/main/java/com/example/realestate/core/navigation/NavGraph.kt:30-46 | A tab switch fails exactly when the tab's route is unregistered. Otherwise the tab's entry is on top, and the stack grows by at most one. |
| NavGraph.PopUpToStartOnWellFormed | app/src/main/java/com/example/realestate/core/navigation/NavGraph.kt:35-39 | On a reachable stack, popping up to the start route leaves only the start entry. |
| NavGraph.TabSwitchBounded | app/src/main/java/com/example/realestate/core/navigation/NavGraph.kt:30-46 | From a reachable stack a tab switch succeeds and keeps the stack reachable. The result is the start entry alone for Home, and start plus the tab otherwise, so no destination has two copies on top. The tab is then the current route. |
| NavGraph.RepeatedTabSwitchesBounded | app/src/main/java/com/example/realestate/core/navigation/NavGraph.kt:30-46 | Any sequence of tab switches succeeds, keeps the stack reachable and never grows it beyond two entries. |
| NavGraph.InitialWellFormed | app/src/main/java/com/example/realestate/core/navigation/NavGraph.kt:50-53 | The host starts on a reachable stack, holding just the start entry. |
| NavGraph.BackKeepsWellFormed | app/src/main/java/com/example/realestate/feature/profile/ProfileScreen.kt:43 | A back button keeps the stack reachable: the start entry stays at the bottom. |
| NavGraph.NavigateKeepsWellFormed | app/src/main/java/com/example/realestate/core/navigation/NavGraph.kt:30-46 | Navigating to a non-start destination keeps the stack reachable. |
| NavGraph.ResolveDetailRoute | app/src/main/java/com/example/realestate/core/navigation/NavGraph.kt:65-71 | The detail route of any `Int` id resolves to the detail destination with that id bound. |
| NavGraph.MatchDetailRoute | app/src/main/java/com/example/realestate/core/navigation/NavGraph.kt:65-70 | The detail destination matches the detail route of any id, binding `propertyId` to the id. |
| NavGraph.ResolveTabRoute | app/src/main/java/com/example/realestate/core/navigation/NavGraph.kt:55-64 | Each tab route resolves, without arguments, to its own registered destination. |
| NavGraph.PropertyIdArgument | app/src/main/java/com/example/realestate/core/navigation/NavGraph.kt:69 | The argument text is "" exactly when the bundle is missing, and "0" when the key is missing. Otherwise it is the `toString()` text of the bound `Int` (no '+' sign, no leading zero), which parses back to that `Int`. |
| NavGraph.GetInt | app/src/main/java/com/example/realestate/core/navigation/NavGraph.kt:69 | `getInt` returns the bound value for a present key and 0 for a missing one. |
| NavGraph.Show | app/src/main/java/com/example/realestate/core/navigation/NavGraph.kt:55-82 | Home shows the home screen, Favorites the favourites screen and a notifications destination the notification screen. The Profile destination, and only it, shows the "Profile Screen" placeholder. The detail destination shows the detail screen with the argument text. |
| Decimal.NatToDigits | app/src/main/java/com/example/realestate/feature/propertydetail/PropertyDetailScreen.kt:51 | The decimal text of a natural number is a non-empty run of digits, without a leading zero unless the number is 0, and has one digit exactly below 10. |
| Decimal.DigitsRoundTrip | app/src/main/java/com/example/realestate/feature/propertydetail/PropertyDetailScreen.kt:51 | Reading back the decimal digits of a number gives the number. |
| Decimal.IntToString | app/src/main/java/com/example/realestate/feature/propertydetail/PropertyDetailScreen.kt:51 | `Int.toString` starts with '-' exactly for negative numbers, is otherwise all digits, and has no leading zero except for 0 itself. |
| Decimal.IntToStringInjective | app/src/main/java/com/example/realestate/feature/propertydetail/PropertyDetailScreen.kt:51 | Different integers have different decimal texts, so comparing id texts is comparing ids. |
| Decimal.ParseInt | app/src/main/java/com/example/realestate/core/navigation/NavGraph.kt:67 | `Integer.parseInt` succeeds exactly on an optional sign followed by one or more digits whose value fits in an `Int`. The result is the digits' value, negated after '-'. "", "-" and "+" are rejected. |
| Decimal.ParseIntToString | app/src/main/java/com/example/realestate/core/navigation/NavGraph.kt:67-69 | Parsing the decimal text of any `Int` gives back that `Int`. |
| Decimal.LeadingZeroParses | app/src/main/java/com/example/realestate/core/navigation/NavGraph.kt:67 | "01" parses to 1, although 1's own text is "1". |
| ContactAgentScreen.AgentFor | app/src/main/java/com/example/realestate/feature/contactagent/ContactAgentScreen.kt:29-35 | Selection is total. "1" to "4" give the named agents, and every other string gives the default agent. |
| ContactAgentScreen.AgentForKey | app/src/main/java/com/example/realestate/feature/contactagent/ContactAgentScreen.kt:30-33 | The text of the ids 1 to 4 selects the agent of the matching branch. |
| ContactAgentScreen.NamedAgentsDistinct | app/src/main/java/com/example/realestate/feature/contactagent/ContactAgentScreen.kt:30-34 | The four named agents, and the default agent, have pairwise-distinct e-mail addresses. |
| ContactAgentScreen.InitialForm | app/src/main/java/com/example/realestate/feature/contactagent/ContactAgentScreen.kt:37 | The message field starts empty. |
| ContactAgentScreen.EditMessage | app/src/main/java/com/example/realestate/feature/contactagent/ContactAgentScreen.kt:120-121 | `onValueChange` sets the field to exactly the typed text. |
| ContactAgentScreen.LastEditWins | app/src/main/java/com/example/realestate/feature/contactagent/ContactAgentScreen.kt:120-121 | Only the last edit's text is shown, whatever came before. Two edits give the same form exactly when their texts are equal. |
| NotificationScreen.UnreadCount | app/src/main/java/com/example/realestate/feature/notification/NotificationScreen.kt:69 | The unread count is at most the length. It is zero exactly when all are read, and equal to the length exactly when none is read. |
| NotificationScreen.UnreadCountAppend | app/src/main/java/com/example/realestate/feature/notification/NotificationScreen.kt:69 | The unread count of a concatenation is the sum of the counts. |
| NotificationScreen.Badge | app/src/main/java/com/example/realestate/feature/notification/NotificationScreen.kt:81-83 | The badge is shown exactly when some notification is unread, and its text is the count's `toString()` (`"$unreadCount"`), which parses back to the unread count. |
| NotificationScreen.View | app/src/main/java/com/example/realestate/feature/notification/NotificationScreen.kt:98-143 | The empty state is shown exactly when the list is empty. Otherwise there is one item per notification, in list order, each with its unread dot exactly when that notification is unread. |
| NotificationScreen.Items | app/src/main/java/com/example/realestate/feature/notification/NotificationScreen.kt:135-228 | Items follow the list order, show the unread dot exactly for unread notifications, and use the icon and colour of their type. |
| NotificationScreen.IconFor | app/src/main/java/com/example/realestate/feature/notification/NotificationScreen.kt:230-238 | Every type has an icon, and the icon determines the type back, so no two types share an icon. |
| NotificationScreen.ColorFor | app/src/main/java/com/example/realestate/feature/notification/NotificationScreen.kt:240-248 | Every type has a fully opaque ARGB colour (alpha byte 0xFF). |
| NotificationScreen.TypeStylesDistinct | app/src/main/java/com/example/realestate/feature/notification/NotificationScreen.kt:230-248 | The icon and colour mappings are total over the five types, and different types get different icons and colours. |
| NotificationScreen.SampleFacts | app/src/main/java/com/example/realestate/feature/notification/NotificationScreen.kt:26-69 | The sample has five notifications with ids 1 to 5, two of them unread, so the badge reads "2". |
| CategoryRow.Chips | app/src/main/java/com/example/realestate/ui/components/CategoryRow.kt:34-37 | One chip per category, in order, selected exactly when its title equals the selection. |
| CategoryRow.ExactlyOneSelected | app/src/main/java/com/example/realestate/ui/components/CategoryRow.kt:37 | With distinct titles, exactly one chip is selected when the selection is a title, and none otherwise. |
| CategoryRow.Click | app/src/main/java/com/example/realestate/ui/components/CategoryRow.kt:38 | After a click, exactly the clicked chip is highlighted. |
| CategoryRow.ClickSelectedIsNoOp | app/src/main/java/com/example/realestate/ui/components/CategoryRow.kt:38 | Clicking the chip that is already selected leaves the selection unchanged. |
| CategoryRow.CategoriesDistinct | app/src/main/java/com/example/realestate/ui/components/CategoryRow.kt:24 | The five category titles are pairwise distinct. |
| CategoryRow.ReplayStaysInCategories | app/src/main/java/com/example/realestate/ui/components/CategoryRow.kt:25-38 | Starting from a category, any sequence of clicks leaves the selection among the categories. |
| CategoryRow.RowHasOneSelection | app/src/main/java/com/example/realestate/ui/components/CategoryRow.kt:24-38 | "House" is a category, and from it, after any sequence of clicks, exactly one chip is selected. |
| AppFlows.CatalogCopiesAgree | app/src/main/java/com/example/realestate/feature/home/HomeScreen.kt:37-42 | The home catalog equals the detail catalog element by element, and its ids are distinct. |
| AppFlows.DetailRouteRoundTrip | app/src/main/java/com/example/realestate/feature/home/HomeScreen.kt:84 | Build, parse, look up: the detail route of every catalog listing pushes the detail entry with the id bound, the host passes on the id's text, and lookup finds that same listing. |
| AppFlows.HomeCardOpensItsDetail | app/src/main/java/com/example/realestate/feature/home/HomeScreen.kt:77-85 | "View Detail" on a home card opens a detail view of the same listing with the same favourite flag, given the same store. |
| AppFlows.FavoriteCardOpensFavoriteDetail | app/src/main/java/com/example/realestate/feature/favorites/FavoritesScreen.kt:62-69 | A stored catalog listing, opened from the favourites list, shows as a favourite on the detail screen. |
| AppFlows.MissingArgumentNotFound | app/src/main/java/com/example/realestate/core/navigation/NavGraph.kt:69 | A missing bundle gives "" and a missing key gives "0". Both take the not-found branch, where the store cannot change. |
| AppFlows.LeadingZeroRouteFindsListing | app/src/main/java/com/example/realestate/core/navigation/NavGraph.kt:67-69 | "property_detail/01" is parsed to id 1 and re-printed as "1", so it shows listing 1, although the screen's own comparison rejects "01". |
| AppFlows.DetailOnTopSelectsNoTab | app/src/main/java/com/example/realestate/ui/components/BottomNavBar.kt:35 | With a detail entry on top, the current route is the template and no tab is highlighted. |
| AppFlows.TabClickSelectsThatTab | app/src/main/java/com/example/realestate/core/navigation/NavGraph.kt:30-46 | After clicking tab i, exactly tab i is highlighted. |
| AppFlows.ProfileTabShowsPlaceholder | app/src/main/java/com/example/realestate/core/navigation/NavGraph.kt:61-64 | The Profile tab shows the placeholder text, not the profile screen. |
| AppFlows.NotificationsRouteUnregistered | app/src/main/java/com/example/realestate/feature/home/HomeScreen.kt:131 | As written, navigating to "notifications" fails with an unknown-route error from every stack. |
| AppFlows.CorrectedGraphResolvesNotifications | app/src/main/java/com/example/realestate/core/navigation/NavGraph.kt:55-71 | With a notifications destination registered after the four, the bell's route resolves to it. |
| AppFlows.CorrectedGraphResolvesEveryBuiltRoute | app/src/main/java/com/example/realestate/core/navigation/NavGraph.kt:55-71 | In the corrected graph, every route the screens build resolves: the bell, the profile option, each tab and every detail route. The bell shows the notification screen. |

## Left out

- Compose layout, styling, colours, alpha values and units, `MainActivity`, and the card component that only forwards callbacks. These are presentation only.
- The settings and edit-profile screens. Their buttons are no-ops or only pop the back stack.
- Drawable lookup by name. It is a call into Android resources, and it is a parameter of `PropertyDetailScreen.Render` in which 0 means "not found".
- `StateFlow` observation, recomposition and `viewModel()` lifetime. The store is passed explicitly to each screen function.
- The navigation library's `saveState`/`restoreState` and deep links.
- NavGraph.NavigateToTab, NavGraph.TabSwitchBounded, NavGraph.RepeatedTabSwitchesBounded and AppFlows.TabClickSelectsThatTab hold only because the model drops `restoreState = true`. With the library's restore, Favorites, then "View Detail", then the Profile tab, then the Favorites tab brings back the saved stack `[home, favorites, detail]`. That stack has three entries and highlights no tab, with the detail entry rather than the Favorites entry on top, so these four contracts would not hold.
- NavGraph.Back: popping the last entry is a modelling choice. The model leaves a one-entry stack as it is, whereas the library's `popBackStack()` would pop the start entry too and leave the host empty. The choice has no effect on the app, because every back button sits on a screen pushed above home, so the stack it pops always has at least two entries.
- NavGraph.Match: integer arguments written in hexadecimal with a `0x` prefix are not accepted, although the library's integer argument type accepts them.
- NavGraph.Match: the library's route matching is not modelled in three further respects. It compares routes case-insensitively, it tolerates a query (`?…`) or fragment (`#…`) suffix, and it percent-decodes the argument before parsing it. The model matches the exact characters of the route.
- NavGraph.ResolveFirst: the library picks the best-matching destination for a route (an exact literal match beats a placeholder), not the first one registered. For `AppGraph` and `CorrectedGraph` the two agree, because no route matches two of their destinations.
- Back buttons of the detail, contact, notification and profile top bars. They are `popBackStack()` calls, modelled once as `NavGraph.Back`.
- The notification item's click handler, the profile options other than Favorites, and the contact screen's send button. Each is an empty handler.
- Decimal.ParseInt: accepts only the ASCII digits '0' to '9'. Java's parser also accepts other Unicode decimal digits.

## Findings

| source | as written | input that shows it | evidently intended | confidence | as-written member | corrected member |
|---|---|---|---|---|---|---|
| app/src/main/java/com/example/realestate/feature/home/HomeScreen.kt:131 | The bell navigates to "notifications", but the navigation host registers only home, favorites, profile and the detail route. | Tapping the bell on the home screen: no destination matches, so `navigate` fails (the library throws). | A notifications destination is registered that shows the notification screen. | not executed | AppFlows.NotificationsRouteUnregistered | AppFlows.CorrectedGraphResolvesEveryBuiltRoute |

=== FILE: app_flows.dfy ===
/**
 * Properties that span several source files: a route built on one screen, resolved by the
 * navigation graph and looked up by another screen, and the bar's highlight after navigation.
 */
module AppFlows {
  import opened Wrappers
  import opened Decimal
  import opened PropertyModel
  import opened Favorites
  import opened Routes
  import opened NavGraph
  import BottomNavBar
  import HomeScreen
  import FavoritesScreen
  import ProfileScreen
  import PropertyDetailScreen

  /** The home screen's and the detail screen's catalog literals are the same list. */
  lemma CatalogCopiesAgree()
    ensures HomeScreen.Properties == PropertyDetailScreen.Properties
    ensures DistinctIds(HomeScreen.Properties)
  {
    PropertyDetailScreen.CatalogShape();
  }

  /**
   * Build, parse, look up: navigating to the detail route of a catalog listing pushes the
   * detail destination with the id bound, the host hands on the id's text, and the detail
   * screen finds that very listing.
   */
  lemma DetailRouteRoundTrip(graph: seq<Destination>, stack: seq<Entry>, i: nat)
    requires ExtendsAppGraph(graph) && i < |PropertyDetailScreen.Properties|
    ensures var p := PropertyDetailScreen.Properties[i];
      var r := Navigate(graph, stack, DetailRoute(p.id));
      && r.Success?
      && r.value == stack + [Entry(DetailDestination, Some(Arguments(map["propertyId" := p.id])))]
      && Show(r.value[|stack|]) == DetailContent(IntToString(p.id))
      && PropertyDetailScreen.Find(PropertyDetailScreen.Properties, IntToString(p.id)) == Some(p)
  {
    var p := PropertyDetailScreen.Properties[i];
    ResolveDetailRoute(graph, p.id);
    PropertyDetailScreen.CatalogShape();
    PropertyDetailScreen.FindOwnId(PropertyDetailScreen.Properties, i);
    var e := Entry(DetailDestination, Some(Arguments(map["propertyId" := p.id])));
    assert PropertyIdArgument(e.arguments) == IntToString(p.id);
  }

  /**
   * "View Detail" on a home card opens a detail screen that shows that card's listing with
   * the same favourite flag, when both screens are given the same favourites list.
   */
  lemma HomeCardOpensItsDetail(favorites: seq<Property>, i: nat, drawableIdOf: string -> int)
    requires i < 4
    ensures var card := HomeScreen.Feed(favorites)[i];
      var r := Navigate(AppGraph, InitialStack, HomeScreen.ViewDetailRoute(card));
      && r.Success?
      && Show(r.value[1]) == DetailContent(IntToString(card.property.id))
      && var v := PropertyDetailScreen.Render(IntToString(card.property.id), favorites, drawableIdOf);
         v.Details? && v.property == card.property && v.isFavorite == card.isFavorite
  {
    CatalogCopiesAgree();
    PropertyDetailScreen.CatalogShape();
    DetailRouteRoundTrip(AppGraph, InitialStack, i);
  }

  /**
   * A stored favourite whose id is in the catalog opens, from the favourites list, a detail
   * screen that shows it as a favourite when given the same list.
   */
  lemma FavoriteCardOpensFavoriteDetail(favorites: seq<Property>, i: nat, drawableIdOf: string -> int)
    requires i < |favorites| && exists j :: 0 <= j < 4 && PropertyDetailScreen.Properties[j].id == favorites[i].id
    ensures var route := FavoritesScreen.ViewDetailRoute(favorites, i);
      var r := Navigate(AppGraph, InitialStack, route);
      && r.Success?
      && Show(r.value[1]) == DetailContent(IntToString(favorites[i].id))
      && var v := PropertyDetailScreen.Render(IntToString(favorites[i].id), favorites, drawableIdOf);
         v.Details? && v.property.id == favorites[i].id && v.isFavorite
  {
    var j :| 0 <= j < 4 && PropertyDetailScreen.Properties[j].id == favorites[i].id;
    DetailRouteRoundTrip(AppGraph, InitialStack, j);
    assert FavoritesScreen.ViewDetailRoute(favorites, i) == DetailRoute(favorites[i].id);
  }

  /**
   * The detail entry as the host sees it when the argument bundle is missing (text "") or
   * lacks the key (`getInt` gives 0, text "0"): both take the not-found branch.
   */
  lemma MissingArgumentNotFound(favorites: seq<Property>, drawableIdOf: string -> int)
    ensures Show(Entry(DetailDestination, None)) == DetailContent("")
    ensures Show(Entry(DetailDestination, Some(Arguments(map[])))) == DetailContent("0")
    ensures PropertyDetailScreen.Render("", favorites, drawableIdOf).NotFound?
    ensures PropertyDetailScreen.Render("0", favorites, drawableIdOf).NotFound?
    ensures PropertyDetailScreen.HeartClick("0", favorites) == favorites
  {
    assert NatToDigits(0) == "0";
    PropertyDetailScreen.FindKeys("");
    PropertyDetailScreen.FindKeys("0");
  }

  /**
   * The navigation library reads "01" as the integer 1, so the route "property_detail/01"
   * shows listing 1, although the detail screen's own string comparison rejects "01".
   */
  lemma LeadingZeroRouteFindsListing()
    ensures Resolve(AppGraph, "property_detail/01") == Some(Entry(DetailDestination, Some(Arguments(map["propertyId" := 1]))))
    ensures PropertyDetailScreen.Find(PropertyDetailScreen.Properties, "01").None?
    ensures PropertyDetailScreen.Find(PropertyDetailScreen.Properties, IntToString(1)) == Some(PropertyDetailScreen.Properties[0])
  {
    var route := "property_detail/01";
    LeadingZeroParses();
    assert route[..16] == "property_detail/" && route[16..] == "01";
    assert Match(DetailDestination, route) == Some(Some(Arguments(map["propertyId" := 1])));
    var g1 := AppGraph[1..];
    var g2 := g1[1..];
    var g3 := g2[1..];
    ResolveFirst(AppGraph, route);
    ResolveFirst(g1, route);
    ResolveFirst(g2, route);
    ResolveFirst(g3, route);
    PropertyDetailScreen.FindKeys("01");
    PropertyDetailScreen.FindKeys("1");
    PropertyDetailScreen.SmallIdTexts();
  }

  /** While a detail screen is on top, the bar highlights no tab: the current route is the template. */
  lemma DetailOnTopSelectsNoTab(graph: seq<Destination>, stack: seq<Entry>, id: int32)
    requires ExtendsAppGraph(graph)
    ensures Navigate(graph, stack, DetailRoute(id)).Success?
    ensures CurrentRoute(Navigate(graph, stack, DetailRoute(id)).value) == Some(PropertyDetail.Route())
    ensures var bar := BottomNavBar.Bar(CurrentRoute(Navigate(graph, stack, DetailRoute(id)).value));
      forall j :: 0 <= j < |bar| ==> !bar[j].selected
  {
    ResolveDetailRoute(graph, id);
    var r := Navigate(graph, stack, DetailRoute(id)).value;
    assert r[|r| - 1] == Entry(DetailDestination, Some(Arguments(map["propertyId" := id])));
    AppGraphRoutes();
  }

  /** After a tab click the bar highlights exactly the clicked tab. */
  lemma TabClickSelectsThatTab(graph: seq<Destination>, stack: seq<Entry>, i: nat)
    requires ExtendsAppGraph(graph) && WellFormed(stack) && i < 3
    ensures NavigateToTab(graph, stack, BottomNavBar.Click(CurrentRoute(stack), i)).Success?
    ensures var tab := BottomNavBar.Click(CurrentRoute(stack), i);
      var bar := BottomNavBar.Bar(CurrentRoute(NavigateToTab(graph, stack, tab).value));
      forall j :: 0 <= j < 3 ==> (bar[j].selected <==> j == i)
  {
    var tab := BottomNavBar.Click(CurrentRoute(stack), i);
    TabSwitchBounded(graph, stack, tab);
    var bar := BottomNavBar.Bar(Some(tab.Route()));
    forall j | 0 <= j < 3 ensures bar[j].selected <==> j == i {
      if j != i {
        RoutesDistinct(BottomNavItems[j], tab);
      }
    }
  }

  /** The Profile tab shows the placeholder text, not the profile screen. */
  lemma ProfileTabShowsPlaceholder(graph: seq<Destination>, stack: seq<Entry>)
    requires ExtendsAppGraph(graph) && WellFormed(stack)
    ensures NavigateToTab(graph, stack, Profile).Success?
    ensures var r := NavigateToTab(graph, stack, Profile).value;
      Show(r[|r| - 1]) == PlaceholderContent("Profile Screen")
  {
    TabSwitchBounded(graph, stack, Profile);
    ResolveTabRoute(graph, Profile);
  }

  /**
   * The bell in the home header navigates to "notifications", which the graph never
   * registers: the navigation fails from every stack.
   */
  lemma NotificationsRouteUnregistered(stack: seq<Entry>)
    ensures Navigate(AppGraph, stack, HomeScreen.NotificationsRoute) == Failure(UnknownRoute("notifications"))
  {
    var route := HomeScreen.NotificationsRoute;
    assert |route| < |DetailDestination.prefix|;
    assert forall d :: d in AppGraph ==> Match(d, route).None?;
  }

  /** In the corrected graph the bell's route reaches the notification screen. */
  lemma CorrectedGraphResolvesNotifications()
    ensures Resolve(CorrectedGraph, HomeScreen.NotificationsRoute) == Some(Entry(Destination(NotificationsPage, "notifications", None), None))
  {
    var g := CorrectedGraph;
    var route := HomeScreen.NotificationsRoute;
    var g1 := g[1..];
    var g2 := g1[1..];
    var g3 := g2[1..];
    var g4 := g3[1..];
    assert g[0] == HomeDestination && g1[0] == FavoritesDestination && g2[0] == ProfileDestination;
    assert g3[0] == DetailDestination && g4[0] == Destination(NotificationsPage, "notifications", None);
    assert |route| < |DetailDestination.prefix|;
    ResolveFirst(g, route);
    ResolveFirst(g1, route);
    ResolveFirst(g2, route);
    ResolveFirst(g3, route);
    ResolveFirst(g4, route);
  }

  /**
   * With the notification destination registered, every route the screens build resolves:
   * the bell, the profile's "favorites" option, each tab and the detail route of any id.
   */
  lemma CorrectedGraphResolvesEveryBuiltRoute(stack: seq<Entry>, id: int32, tab: Screen)
    requires tab in BottomNavItems
    ensures ExtendsAppGraph(CorrectedGraph)
    ensures Navigate(CorrectedGraph, stack, HomeScreen.NotificationsRoute).Success?
    ensures Show(Navigate(CorrectedGraph, stack, HomeScreen.NotificationsRoute).value[|stack|]) == NotificationsContent
    ensures Navigate(CorrectedGraph, stack, ProfileScreen.FavoritesOptionRoute).Success?
    ensures Navigate(CorrectedGraph, stack, DetailRoute(id)).Success?
    ensures Navigate(CorrectedGraph, stack, tab.Route()).Success?
  {
    assert CorrectedGraph[..4] == AppGraph;
    ResolveDetailRoute(CorrectedGraph, id);
    ResolveTabRoute(CorrectedGraph, tab);
    ResolveTabRoute(CorrectedGraph, Favorites);
    CorrectedGraphResolvesNotifications();
  }
}

=== FILE: bottom_nav_bar.dfy ===
/** The floating bottom bar (ui/components/BottomNavBar.kt): which tab is highlighted, what a click emits. */
module BottomNavBar {
  import opened Wrappers
  import opened Routes

  /** One icon button of the bar: the screen it stands for and whether it is tinted as selected. */
  datatype TabItem = TabItem(screen: Screen, selected: bool)

  /** `isSelected = currentRoute == screen.route`: Kotlin's `==` on a `String?` against a `String`. */
  predicate IsSelected(currentRoute: Option<string>, screen: Screen)
  {
    currentRoute == Some(screen.Route())
  }

  /** The buttons `forEach` draws over `items`, in order. */
  function TabItems(items: seq<Screen>, currentRoute: Option<string>): (r: seq<TabItem>)
    ensures |r| == |items|
    ensures forall i :: 0 <= i < |r| ==> r[i].screen == items[i]
    ensures forall i :: 0 <= i < |r| ==> (r[i].selected <==> currentRoute == Some(items[i].Route()))
  {
    if |items| == 0 then []
    else [TabItem(items[0], IsSelected(currentRoute, items[0]))] + TabItems(items[1..], currentRoute)
  }

  /** The bar for the current route: the three tabs, with at most one highlighted. */
  function Bar(currentRoute: Option<string>): (r: seq<TabItem>)
    ensures |r| == 3 && r[0].screen == Home && r[1].screen == Favorites && r[2].screen == Profile
    ensures forall i :: 0 <= i < |r| ==> (r[i].selected <==> currentRoute == Some(r[i].screen.Route()))
    ensures forall i, j :: 0 <= i < j < |r| ==> !(r[i].selected && r[j].selected)
    ensures currentRoute.None? ==> forall i :: 0 <= i < |r| ==> !r[i].selected
    ensures currentRoute == Some(PropertyDetail.Route()) ==> forall i :: 0 <= i < |r| ==> !r[i].selected
    ensures (exists i :: 0 <= i < |r| && r[i].selected) <==> currentRoute in {Some("home"), Some("favorites"), Some("profile")}
  {
    var r := TabItems(BottomNavItems, currentRoute);
    forall i, j | 0 <= i < j < |r| ensures !(r[i].selected && r[j].selected) {
      RoutesDistinct(r[i].screen, r[j].screen);
    }
    forall i | 0 <= i < |r| ensures currentRoute == Some(PropertyDetail.Route()) ==> !r[i].selected {
      RoutesDistinct(r[i].screen, PropertyDetail);
    }
    assert currentRoute == Some("home") ==> r[0].selected;
    r
  }

  /** `onClick = { onNavigate(screen) }`: clicking the i-th button emits the i-th bottom-nav screen. */
  function Click(currentRoute: Option<string>, i: nat): (s: Screen)
    requires i < 3
    ensures s == BottomNavItems[i]
    ensures s in BottomNavItems && !s.PropertyDetail?
  {
    Bar(currentRoute)[i].screen
  }
}

=== FILE: category_row.dfy ===
/** The category chips (ui/components/CategoryRow.kt): a single remembered selection. */
module CategoryRow {

  /** The chip titles, in display order. */
  const Categories: seq<string> := ["House", "Apartment", "Villa", "Office", "Townhouse"]

  /** `remember { mutableStateOf("House") }`. */
  const InitialSelection: string := "House"

  /** One chip: its title and whether it is drawn as selected. */
  datatype Chip = Chip(title: string, selected: bool)

  /** `items(categories) { isSelected = category == selectedCategory }`. */
  function Chips(titles: seq<string>, selection: string): (r: seq<Chip>)
    ensures |r| == |titles|
    ensures forall i :: 0 <= i < |r| ==> r[i].title == titles[i] && (r[i].selected <==> titles[i] == selection)
  {
    if |titles| == 0 then [] else [Chip(titles[0], titles[0] == selection)] + Chips(titles[1..], selection)
  }

  /** The number of chips drawn as selected. */
  function SelectedCount(chips: seq<Chip>): (n: nat)
    ensures n <= |chips|
  {
    if |chips| == 0 then 0 else (if chips[0].selected then 1 else 0) + SelectedCount(chips[1..])
  }

  predicate Distinct(titles: seq<string>)
  {
    forall i, j :: 0 <= i < j < |titles| ==> titles[i] != titles[j]
  }

  /** With distinct titles, a selection among them marks exactly one chip, and one outside them marks none. */
  lemma {:induction false} ExactlyOneSelected(titles: seq<string>, selection: string)
    requires Distinct(titles)
    ensures SelectedCount(Chips(titles, selection)) == if selection in titles then 1 else 0
  {
    if |titles| > 0 {
      var t := titles[1..];
      assert Distinct(t) by {
        forall i, j | 0 <= i < j < |t| ensures t[i] != t[j] {
          assert t[i] == titles[i + 1] && t[j] == titles[j + 1];
        }
      }
      ExactlyOneSelected(t, selection);
      assert Chips(titles, selection)[1..] == Chips(t, selection);
      assert titles[0] == selection ==> selection !in t;
      assert selection in titles <==> titles[0] == selection || selection in t by {
        assert titles == [titles[0]] + t;
      }
    }
  }

  /** `onClick = { selectedCategory = category }`. */
  function Click(selection: string, category: string): (next: string)
    ensures forall i :: 0 <= i < |Categories| ==> (Chips(Categories, next)[i].selected <==> Categories[i] == category)
    ensures category in Categories ==> SelectedCount(Chips(Categories, next)) == 1
  {
    CategoriesDistinct();
    ExactlyOneSelected(Categories, category);
    category
  }

  /** Clicking the chip that is already selected leaves the state as it is. */
  lemma ClickSelectedIsNoOp(selection: string)
    ensures Click(selection, selection) == selection
    ensures SelectedCount(Chips(Categories, Click(selection, selection))) == SelectedCount(Chips(Categories, selection))
  {
  }

  /** The row always shows exactly one selected chip, from the first composition through any sequence of clicks. */
  lemma RowHasOneSelection(clicks: seq<nat>)
    requires forall i :: 0 <= i < |clicks| ==> clicks[i] < |Categories|
    ensures InitialSelection in Categories
    ensures SelectedCount(Chips(Categories, Replay(InitialSelection, clicks))) == 1
  {
    CategoriesDistinct();
    ReplayStaysInCategories(InitialSelection, clicks);
    ExactlyOneSelected(Categories, Replay(InitialSelection, clicks));
  }

  /** The five titles are pairwise different. */
  lemma CategoriesDistinct()
    ensures Distinct(Categories)
  {
    assert Categories[0][0] == 'H' && Categories[1][0] == 'A' && Categories[2][0] == 'V';
    assert Categories[3][0] == 'O' && Categories[4][0] == 'T';
  }

  /** The selection after clicking the chips at the given positions in turn. */
  function Replay(selection: string, clicks: seq<nat>): string
    requires forall i :: 0 <= i < |clicks| ==> clicks[i] < |Categories|
    decreases |clicks|
  {
    if |clicks| == 0 then selection else Replay(Click(selection, Categories[clicks[0]]), clicks[1..])
  }

  lemma {:induction false} ReplayStaysInCategories(selection: string, clicks: seq<nat>)
    requires selection in Categories
    requires forall i :: 0 <= i < |clicks| ==> clicks[i] < |Categories|
    ensures Replay(selection, clicks) in Categories
    decreases |clicks|
  {
    if |clicks| > 0 {
      ReplayStaysInCategories(Click(selection, Categories[clicks[0]]), clicks[1..]);
    }
  }
}

=== FILE: contact_agent_screen.dfy ===
/** The contact form (feature/contactagent/ContactAgentScreen.kt): agent chosen by route argument. */
module ContactAgentScreen {
  import opened Decimal
  import opened PropertyModel

  /** `data class Agent`. */
  datatype Agent = Agent(name: string, email: string, phone: string, bio: string)

  const JohnSmith := Agent("John Smith", "john.smith@realestate.com", "+1 (555) 123-4567", "Experienced real estate agent specializing in luxury villas.")
  const JaneDoe := Agent("Jane Doe", "jane.doe@realestate.com", "+1 (555) 234-5678", "Expert in urban apartments and modern living spaces.")
  const BobJohnson := Agent("Bob Johnson", "bob.johnson@realestate.com", "+1 (555) 345-6789", "Specialist in cozy family homes and suburban properties.")
  const AliceBrown := Agent("Alice Brown", "alice.brown@realestate.com", "+1 (555) 456-7890", "Luxury penthouse and high-end property expert.")
  const DefaultAgent := Agent("Default Agent", "agent@realestate.com", "+1 (555) 000-0000", "Real estate professional ready to assist.")

  /** The four agents with a listing of their own, in the order of the `when` branches. */
  const NamedAgents: seq<Agent> := [JohnSmith, JaneDoe, BobJohnson, AliceBrown]

  /** `when (propertyId)`: exact matches on "1" to "4", every other string to the default agent. */
  function AgentFor(propertyId: string): (a: Agent)
    ensures propertyId in {"1", "2", "3", "4"} <==> a in NamedAgents
    ensures propertyId !in {"1", "2", "3", "4"} <==> a == DefaultAgent
    ensures propertyId == "1" ==> a.name == "John Smith"
    ensures propertyId == "4" ==> a.name == "Alice Brown"
  {
    match propertyId
    case "1" => JohnSmith
    case "2" => JaneDoe
    case "3" => BobJohnson
    case "4" => AliceBrown
    case _ => DefaultAgent
  }

  /** Different keys among "1" to "4" give different agents, each reachable by its e-mail address. */
  lemma NamedAgentsDistinct()
    ensures forall i, j :: 0 <= i < j < |NamedAgents| ==> NamedAgents[i].email != NamedAgents[j].email
    ensures forall i :: 0 <= i < |NamedAgents| ==> NamedAgents[i].email != DefaultAgent.email
  {
  }

  /** The key "1".."4" picks the agent at that position of `NamedAgents`. */
  lemma AgentForKey(n: int)
    requires 1 <= n <= 4
    ensures AgentFor(IntToString(n)) == NamedAgents[n - 1]
  {
    assert NatToDigits(n) == [DigitChar(n)];
    if n == 1 { assert IntToString(n) == "1"; }
    else if n == 2 { assert IntToString(n) == "2"; }
    else if n == 3 { assert IntToString(n) == "3"; }
    else { assert IntToString(n) == "4"; }
  }

  /** The message field: starts empty, `onValueChange` replaces its text. */
  datatype ContactForm = ContactForm(message: string)

  function InitialForm(): (f: ContactForm)
    ensures |f.message| == 0
  {
    ContactForm("")
  }

  function EditMessage(f: ContactForm, text: string): (g: ContactForm)
    ensures g.message == text
  {
    ContactForm(text)
  }

  /** The field shows the text of the last edit only: earlier edits leave no trace. */
  lemma LastEditWins(f: ContactForm, first: string, second: string)
    ensures EditMessage(EditMessage(f, first), second) == EditMessage(f, second) == EditMessage(InitialForm(), second)
    ensures EditMessage(f, first) == EditMessage(f, second) <==> first == second
  {
  }
}

=== FILE: decimal.dfy ===
/**
 * Decimal text for Kotlin's 32-bit `Int`: `Int.toString()` (used to build routes and
 * to compare a property id with a route argument) and `Integer.parseInt` (used by the
 * navigation library to read an integer route argument back).
 */
module Decimal {
  import opened Wrappers

  /** Kotlin's `Int`: a signed 32-bit integer. */
  type int32 = x: int | -0x8000_0000 <= x < 0x8000_0000

  predicate IsDigit(c: char)
  {
    '0' <= c <= '9'
  }

  predicate AllDigits(s: string)
  {
    forall i :: 0 <= i < |s| ==> IsDigit(s[i])
  }

  function DigitValue(c: char): (d: nat)
    requires IsDigit(c)
    ensures d < 10
  {
    (c as int) - ('0' as int)
  }

  function DigitChar(d: nat): (c: char)
    requires d < 10
    ensures IsDigit(c) && DigitValue(c) == d
  {
    (('0' as int) + d) as char
  }

  /** The decimal digits of `n`, most significant first, with no leading zero. */
  function NatToDigits(n: nat): (s: string)
    ensures |s| >= 1 && AllDigits(s)
    ensures n > 0 ==> s[0] != '0'
    ensures n < 10 <==> |s| == 1
    decreases n
  {
    if n < 10 then [DigitChar(n)] else NatToDigits(n / 10) + [DigitChar(n % 10)]
  }

  /** The value of a string of decimal digits, most significant first. */
  function DigitsValue(s: string): nat
    requires AllDigits(s)
  {
    if |s| == 0 then 0 else 10 * DigitsValue(s[..|s| - 1]) + DigitValue(s[|s| - 1])
  }

  /** Reading back the digits of a natural number gives that number. */
  lemma {:induction false} DigitsRoundTrip(n: nat)
    ensures DigitsValue(NatToDigits(n)) == n
    decreases n
  {
    if n >= 10 {
      var s := NatToDigits(n);
      DigitsRoundTrip(n / 10);
      assert s[..|s| - 1] == NatToDigits(n / 10);
    }
  }

  /** Kotlin's `Int.toString()`: a minus sign for negative values, then the digits of the magnitude. */
  function IntToString(i: int): (s: string)
    ensures |s| >= 1
    ensures s[0] == '-' <==> i < 0
    ensures i >= 0 ==> AllDigits(s)
    ensures i < 0 ==> AllDigits(s[1..]) && |s| >= 2
    ensures i >= 0 && |s| >= 2 ==> s[0] != '0'
    ensures i < 0 ==> s[1] != '0'
  {
    if i < 0 then "-" + NatToDigits(-i) else NatToDigits(i)
  }

  /** Two naturals with the same digits are equal. */
  lemma NatToDigitsInjective(m: nat, n: nat)
    requires NatToDigits(m) == NatToDigits(n)
    ensures m == n
  {
    DigitsRoundTrip(m);
    DigitsRoundTrip(n);
  }

  /** Two integers with the same decimal text are equal. */
  lemma IntToStringInjective(a: int, b: int)
    requires IntToString(a) == IntToString(b)
    ensures a == b
  {
    var s := IntToString(a);
    if a < 0 {
      assert b < 0;
      assert NatToDigits(-a) == s[1..] == NatToDigits(-b);
      NatToDigitsInjective(-a, -b);
    } else {
      assert b >= 0;
      NatToDigitsInjective(a, b);
    }
  }

  /** The text after an optional leading '+' or '-' sign. */
  function Unsigned(s: string): (d: string)
    ensures |s| >= 1 && (s[0] == '-' || s[0] == '+') ==> d == s[1..]
    ensures |s| == 0 || (s[0] != '-' && s[0] != '+') ==> d == s
  {
    if |s| >= 1 && (s[0] == '-' || s[0] == '+') then s[1..] else s
  }

  /**
   * `Integer.parseInt`: an optional '+' or '-' sign followed by one or more decimal
   * digits whose value lies in the `Int` range; anything else is a format error.
   */
  function ParseInt(s: string): (r: Option<int32>)
    ensures r.Some? <==>
      && |s| >= 1
      && var d := Unsigned(s);
         && |d| >= 1 && AllDigits(d)
         && (if s[0] == '-' then DigitsValue(d) <= 0x8000_0000 else DigitsValue(d) < 0x8000_0000)
    ensures r.Some? ==> r.value == if s[0] == '-' then 0 - DigitsValue(Unsigned(s)) as int else DigitsValue(Unsigned(s)) as int
    ensures r.Some? && r.value < 0 ==> s[0] == '-'
    ensures |s| == 0 || s == "-" || s == "+" ==> r.None?
  {
    if |s| == 0 then None
    else
      var digits := if s[0] == '-' || s[0] == '+' then s[1..] else s;
      if |digits| == 0 || !AllDigits(digits) then None
      else
        var v: int := if s[0] == '-' then 0 - DigitsValue(digits) as int else DigitsValue(digits);
        if -0x8000_0000 <= v < 0x8000_0000 then Some(v) else None
  }

  /** Parsing the decimal text of any `Int` gives that `Int` back. */
  lemma ParseIntToString(i: int32)
    ensures ParseInt(IntToString(i)) == Some(i)
  {
    var s := IntToString(i);
    if i < 0 {
      var d := NatToDigits(-(i as int));
      assert s == "-" + d;
      assert s[1..] == d;
      DigitsRoundTrip(-(i as int));
      assert DigitsValue(d) == -(i as int);
    } else {
      assert s[0] != '-' && s[0] != '+';
      DigitsRoundTrip(i);
    }
  }

  /** `Integer.parseInt` accepts a leading zero that `Int.toString()` never writes. */
  lemma LeadingZeroParses()
    ensures ParseInt("01") == Some(1)
    ensures IntToString(1) == "1" != "01"
  {
    assert "01"[..1] == "0";
    assert DigitsValue("0") == 0;
  }
}

=== FILE: favorites.dfy ===
/**
 * The favourites store of FavoritesViewModel.kt. The `StateFlow` holding the list is
 * modelled as the list value itself: each operation maps the current list to the next.
 */
module Favorites {
  import opened Decimal
  import opened PropertyModel

  /** Kotlin's `any { it.id == id }`: some entry carries this id. */
  function HasId(s: seq<Property>, id: int): (b: bool)
    ensures b <==> exists i :: 0 <= i < |s| && s[i].id == id
  {
    if |s| == 0 then false else s[0].id == id || HasId(s[1..], id)
  }

  /** How many entries carry this id. */
  function CountId(s: seq<Property>, id: int): (n: nat)
    ensures n <= |s|
    ensures n == 0 <==> !HasId(s, id)
  {
    if |s| == 0 then 0 else (if s[0].id == id then 1 else 0) + CountId(s[1..], id)
  }

  /** `a` can be obtained from `b` by deleting entries, keeping the order of the rest. */
  predicate IsSubsequence(a: seq<Property>, b: seq<Property>)
  {
    |a| == 0 || (|b| > 0 && ((a[0] == b[0] && IsSubsequence(a[1..], b[1..])) || IsSubsequence(a, b[1..])))
  }

  /** Kotlin's `removeIf { it.id == id }`: drops every entry carrying this id. */
  function RemoveId(s: seq<Property>, id: int): (r: seq<Property>)
    ensures !HasId(r, id)
    ensures |r| == |s| - CountId(s, id)
  {
    if |s| == 0 then []
    else if s[0].id == id then RemoveId(s[1..], id)
    else [s[0]] + RemoveId(s[1..], id)
  }

  /**
   * What removal keeps: exactly the entries with another id, in their original order. Being
   * a subsequence of `s` with no entry of this id and `CountId` fewer entries determines the
   * result uniquely.
   */
  lemma {:induction false} RemoveIdKeepsOthers(s: seq<Property>, id: int)
    ensures forall q :: q in RemoveId(s, id) <==> q in s && q.id != id
    ensures IsSubsequence(RemoveId(s, id), s)
  {
    if |s| > 0 {
      RemoveIdKeepsOthers(s[1..], id);
      assert s == [s[0]] + s[1..];
      var t := RemoveId(s[1..], id);
      if s[0].id != id {
        assert RemoveId(s, id) == [s[0]] + t;
        assert ([s[0]] + t)[1..] == t;
      } else {
        assert RemoveId(s, id) == t;
        if |t| > 0 {
          assert IsSubsequence(t, s[1..]);
        }
      }
    }
  }

  /** Lists that agree after removing one id agree on every other id. */
  lemma RemoveIdKeepsOthersId(a: seq<Property>, b: seq<Property>, removed: int, id: int)
    requires RemoveId(a, removed) == RemoveId(b, removed) && id != removed
    ensures HasId(a, id) == HasId(b, id)
  {
    RemoveIdKeepsOthers(a, removed);
    RemoveIdKeepsOthers(b, removed);
    if HasId(a, id) {
      var i :| 0 <= i < |a| && a[i].id == id;
      assert a[i] in RemoveId(b, removed);
    }
    if HasId(b, id) {
      var i :| 0 <= i < |b| && b[i].id == id;
      assert b[i] in RemoveId(a, removed);
    }
  }

  /** The store's initial value: `MutableStateFlow(emptyList())`. */
  function InitialFavorites(): (s: seq<Property>)
    ensures forall id: int :: !HasId(s, id)
  {
    []
  }

  /**
   * `toggleFavorite(property)`: when some entry has the argument's id, every such entry is
   * removed; otherwise the argument is appended.
   */
  function Toggle(s: seq<Property>, p: Property): (r: seq<Property>)
    ensures HasId(r, p.id) == !HasId(s, p.id)
    ensures RemoveId(r, p.id) == RemoveId(s, p.id)
    ensures !HasId(s, p.id) ==> |r| == |s| + 1 && r[..|s|] == s && r[|s|] == p
    ensures HasId(s, p.id) ==> |r| < |s|
  {
    if HasId(s, p.id) then
      RemoveIdIdempotent(s, p.id);
      RemoveId(s, p.id)
    else
      RemoveIdAppend(s, [p], p.id);
      RemoveIdAbsent(s, p.id);
      s + [p]
  }

  /** Removing an id that no entry carries changes nothing. */
  lemma {:induction false} RemoveIdAbsent(s: seq<Property>, id: int)
    requires !HasId(s, id)
    ensures RemoveId(s, id) == s
  {
    if |s| > 0 {
      RemoveIdAbsent(s[1..], id);
      assert [s[0]] + s[1..] == s;
    }
  }

  /** Removal works entry by entry, so it distributes over concatenation. */
  lemma {:induction false} RemoveIdAppend(a: seq<Property>, b: seq<Property>, id: int)
    ensures RemoveId(a + b, id) == RemoveId(a, id) + RemoveId(b, id)
  {
    if |a| == 0 {
      assert a + b == b;
    } else {
      assert (a + b)[0] == a[0];
      assert (a + b)[1..] == a[1..] + b;
      RemoveIdAppend(a[1..], b, id);
    }
  }

  /** Removing the same id twice is the same as removing it once. */
  lemma RemoveIdIdempotent(s: seq<Property>, id: int)
    ensures RemoveId(RemoveId(s, id), id) == RemoveId(s, id)
  {
    RemoveIdAbsent(RemoveId(s, id), id);
  }

  /**
   * Membership and removal look at the id only: toggling a structurally different value
   * with a stored id removes the stored entry just as the stored value itself would.
   */
  lemma ToggleUsesIdOnly(s: seq<Property>, p: Property, q: Property)
    requires p.id == q.id && HasId(s, p.id)
    ensures Toggle(s, p) == Toggle(s, q) == RemoveId(s, p.id)
  {
  }

  /** Toggling an absent property twice restores the exact list. */
  lemma ToggleTwiceAbsent(s: seq<Property>, p: Property)
    requires !HasId(s, p.id)
    ensures Toggle(Toggle(s, p), p) == s
  {
    var t := Toggle(s, p);
    assert t == s + [p];
    RemoveIdAppend(s, [p], p.id);
    RemoveIdAbsent(s, p.id);
  }

  /**
   * Toggling a present id twice restores membership of that id, but the entry moves to the
   * end of the list and is now the argument value rather than the previously stored one.
   */
  lemma ToggleTwicePresent(s: seq<Property>, p: Property)
    requires HasId(s, p.id)
    ensures Toggle(Toggle(s, p), p) == RemoveId(s, p.id) + [p]
    ensures HasId(Toggle(Toggle(s, p), p), p.id)
  {
  }

  /** Distinct ids stay distinct in the tail. */
  lemma DistinctTail(s: seq<Property>)
    requires DistinctIds(s) && |s| > 0
    ensures DistinctIds(s[1..])
    ensures forall q :: q in s[1..] ==> q.id != s[0].id
  {
    var t := s[1..];
    forall i, j | 0 <= i < j < |t| ensures t[i].id != t[j].id {
      assert t[i] == s[i + 1] && t[j] == s[j + 1];
    }
    forall q | q in t ensures q.id != s[0].id {
      var k :| 0 <= k < |t| && t[k] == q;
      assert t[k] == s[k + 1];
    }
  }

  /** Putting an entry in front of a distinct list whose ids all differ from it keeps them distinct. */
  lemma DistinctCons(x: Property, r: seq<Property>)
    requires DistinctIds(r)
    requires forall q :: q in r ==> q.id != x.id
    ensures DistinctIds([x] + r)
  {
    var u := [x] + r;
    forall i, j | 0 <= i < j < |u| ensures u[i].id != u[j].id {
      assert u[j] == r[j - 1] && r[j - 1] in r;
      if i > 0 {
        assert u[i] == r[i - 1];
      }
    }
  }

  /** With distinct ids, an id that occurs occurs exactly once. */
  lemma {:induction false} CountIdDistinct(s: seq<Property>, id: int)
    requires DistinctIds(s) && HasId(s, id)
    ensures CountId(s, id) == 1
  {
    DistinctTail(s);
    if s[0].id == id {
      assert !HasId(s[1..], id);
    } else {
      CountIdDistinct(s[1..], id);
    }
  }

  /** Removal keeps ids distinct. */
  lemma {:induction false} RemoveIdKeepsDistinct(s: seq<Property>, id: int)
    requires DistinctIds(s)
    ensures DistinctIds(RemoveId(s, id))
  {
    if |s| > 0 {
      var t := s[1..];
      DistinctTail(s);
      RemoveIdKeepsDistinct(t, id);
      if s[0].id != id {
        RemoveIdKeepsOthers(t, id);
        DistinctCons(s[0], RemoveId(t, id));
      }
    }
  }

  /**
   * The store invariant: starting from distinct ids, a toggle keeps them distinct and changes
   * the length by exactly one, down when the id was present and up when it was absent.
   */
  lemma ToggleKeepsDistinct(s: seq<Property>, p: Property)
    requires DistinctIds(s)
    ensures DistinctIds(Toggle(s, p))
    ensures |Toggle(s, p)| == if HasId(s, p.id) then |s| - 1 else |s| + 1
  {
    if HasId(s, p.id) {
      RemoveIdKeepsDistinct(s, p.id);
      CountIdDistinct(s, p.id);
    } else {
      var r := s + [p];
      forall i, j | 0 <= i < j < |r| ensures r[i].id != r[j].id {
        if j == |s| {
          assert r[i] == s[i];
        }
      }
    }
  }

  /**
   * With distinct ids, removing a present id deletes exactly one entry: the list is the
   * entries before it followed by the entries after it.
   */
  lemma RemoveIdDistinctSplice(s: seq<Property>, k: nat)
    requires DistinctIds(s) && k < |s|
    ensures RemoveId(s, s[k].id) == s[..k] + s[k + 1..]
  {
    assert forall j :: 0 <= j < |s| && j != k ==> s[j].id != s[k].id by {
      forall j | 0 <= j < |s| && j != k ensures s[j].id != s[k].id {
        if j < k {
          assert s[j].id != s[k].id;
        } else {
          assert s[k].id != s[j].id;
        }
      }
    }
    RemoveIdSplice(s, k);
  }

  /** Removing the id that only position `k` carries deletes exactly that position. */
  lemma {:induction false} RemoveIdSplice(s: seq<Property>, k: nat)
    requires k < |s|
    requires forall j :: 0 <= j < |s| && j != k ==> s[j].id != s[k].id
    ensures RemoveId(s, s[k].id) == s[..k] + s[k + 1..]
    decreases k
  {
    var id := s[k].id;
    var t := s[1..];
    if k == 0 {
      RemoveIdSpliceHead(s);
    } else {
      assert t[k - 1] == s[k];
      assert forall j :: 0 <= j < |t| && j != k - 1 ==> t[j].id != t[k - 1].id by {
        forall j | 0 <= j < |t| && j != k - 1 ensures t[j].id != t[k - 1].id {
          assert t[j] == s[j + 1];
        }
      }
      RemoveIdSplice(t, k - 1);
      assert RemoveId(s, id) == [s[0]] + RemoveId(t, id);
      SpliceCons(s, k);
    }
  }

  /** The base case of `RemoveIdSplice`: the id only the head carries. */
  lemma RemoveIdSpliceHead(s: seq<Property>)
    requires |s| > 0
    requires forall j :: 0 < j < |s| ==> s[j].id != s[0].id
    ensures RemoveId(s, s[0].id) == s[1..]
  {
    var t := s[1..];
    forall j | 0 <= j < |t| ensures t[j].id != s[0].id {
      assert t[j] == s[j + 1];
    }
    RemoveIdAbsent(t, s[0].id);
  }

  /** Deleting position `k` commutes with putting the head back in front. */
  lemma SpliceCons<T>(s: seq<T>, k: nat)
    requires 0 < k < |s|
    ensures [s[0]] + (s[1..][..k - 1] + s[1..][k..]) == s[..k] + s[k + 1..]
  {
    assert [s[0]] + s[1..][..k - 1] == s[..k];
    assert s[1..][k..] == s[k + 1..];
  }

  /** Toggling A, then B, then A off and on again leaves B before A. */
  lemma ToggleOrderScenario(a: Property, b: Property)
    requires a.id != b.id
    ensures Toggle(Toggle(Toggle(Toggle(InitialFavorites(), a), b), a), a) == [b, a]
  {
    var s1 := Toggle([], a);
    assert s1 == [a];
    var s2 := Toggle(s1, b);
    assert s2 == [a, b];
    var s3 := Toggle(s2, a);
    assert s3 == [b] by {
      assert RemoveId([b], a.id) == [b];
      assert s2 == [a] + [b];
    }
  }

  /** Toggling a property into the empty store and out again. */
  lemma ToggleFromEmptyScenario(p: Property)
    ensures Toggle(InitialFavorites(), p) == [p]
    ensures Toggle(Toggle(InitialFavorites(), p), p) == []
  {
    assert Toggle([], p) == [p];
    assert RemoveId([p], p.id) == [];
  }
}

=== FILE: favorites_screen.dfy ===
/** The favourites tab (feature/favorites/FavoritesScreen.kt): a projection of the store. */
module FavoritesScreen {
  import opened PropertyModel
  import opened Favorites
  import opened Routes
  import HomeScreen

  /** Either the placeholder sentence or one card per stored listing. */
  datatype FavoritesView =
    | EmptyMessage(text: string)
    | CardList(cards: seq<HomeScreen.Card>)

  /** Every stored listing as a card with a filled heart (`isFavorite = true`). */
  function FilledCards(favorites: seq<Property>): (r: seq<HomeScreen.Card>)
    ensures |r| == |favorites|
    ensures forall i :: 0 <= i < |r| ==> r[i] == HomeScreen.Card(favorites[i], true)
  {
    if |favorites| == 0 then [] else [HomeScreen.Card(favorites[0], true)] + FilledCards(favorites[1..])
  }

  /** The screen body for a favourites list. */
  function View(favorites: seq<Property>): (v: FavoritesView)
    ensures v.EmptyMessage? <==> |favorites| == 0
    ensures v.EmptyMessage? ==> v.text == "Your favorite properties will appear here."
    ensures v.CardList? ==> |v.cards| == |favorites|
    ensures v.CardList? ==> forall i :: 0 <= i < |v.cards| ==> v.cards[i].property == favorites[i] && v.cards[i].isFavorite
  {
    if |favorites| == 0 then EmptyMessage("Your favorite properties will appear here.")
    else CardList(FilledCards(favorites))
  }

  /**
   * The heart on the i-th card: its listing is in the store, so toggling removes it; with
   * distinct ids exactly that card disappears and the rest keep their order.
   */
  function HeartClick(favorites: seq<Property>, i: nat): (r: seq<Property>)
    requires i < |favorites|
    ensures !HasId(r, favorites[i].id)
    ensures DistinctIds(favorites) ==> r == favorites[..i] + favorites[i + 1..]
  {
    RemoveIdDistinctSpliceIfDistinct(favorites, i);
    Toggle(favorites, favorites[i])
  }

  /** Removing position i's id deletes just that card whenever the store's ids are distinct. */
  lemma RemoveIdDistinctSpliceIfDistinct(s: seq<Property>, i: nat)
    requires i < |s|
    ensures DistinctIds(s) ==> RemoveId(s, s[i].id) == s[..i] + s[i + 1..]
  {
    if DistinctIds(s) {
      RemoveIdDistinctSplice(s, i);
    }
  }

  /** "View Detail" on the i-th card: the detail route of that listing. */
  function ViewDetailRoute(favorites: seq<Property>, i: nat): (route: string)
    requires i < |favorites|
    ensures |route| > 16 && route[..16] == "property_detail/" && route[16..] == Decimal.IntToString(favorites[i].id)
  {
    DetailRouteBindsTemplate(favorites[i].id);
    DetailRoute(favorites[i].id)
  }
}

=== FILE: home_screen.dfy ===
/**
 * The home screen (feature/home/HomeScreen.kt): its own copy of the catalog, one card per
 * listing with a favourite flag, the heart button and the two navigation targets.
 */
module HomeScreen {
  import opened PropertyModel
  import opened Favorites
  import opened Routes

  /** The screen's hard-coded listing, written out a second time in the detail screen. */
  const Properties: seq<Property> := [
    Property(1, "Modern Villa", "123 Maple St, California", 250000, 4, 3, 2400, "pic_1", true),
    Property(2, "Luxury Apartment", "456 Oak Ave, New York", 180000, 2, 2, 1200, "pic_2", false),
    Property(3, "Cosy House", "789 Pine Rd, Texas", 320000, 3, 2, 1800, "pic_3", true),
    Property(4, "Skyline Penthouse", "101 View Blvd, Miami", 550000, 5, 4, 3500, "pic_4", true)
  ]

  /** The inputs of one `PropertyCard`: the listing and whether its heart is filled. */
  datatype Card = Card(property: Property, isFavorite: bool)

  /** `items(properties) { ... isFavorite = favoriteProperties.any { it.id == property.id } }`. */
  function Cards(props: seq<Property>, favorites: seq<Property>): (r: seq<Card>)
    ensures |r| == |props|
    ensures forall i :: 0 <= i < |r| ==> r[i].property == props[i]
    ensures forall i :: 0 <= i < |r| ==> (r[i].isFavorite <==> exists j :: 0 <= j < |favorites| && favorites[j].id == props[i].id)
  {
    if |props| == 0 then []
    else [Card(props[0], HasId(favorites, props[0].id))] + Cards(props[1..], favorites)
  }

  /** The home list for a favourites list. */
  function Feed(favorites: seq<Property>): (r: seq<Card>)
    ensures |r| == 4
    ensures forall i :: 0 <= i < |r| ==> r[i].property == Properties[i] && r[i].property.id == i + 1
    ensures forall i :: 0 <= i < |r| ==> (r[i].isFavorite <==> HasId(favorites, r[i].property.id))
  {
    Cards(Properties, favorites)
  }

  /**
   * `onFavoriteToggle = { favoritesViewModel.toggleFavorite(it) }`: the card hands its own
   * listing to the store, so the card's flag flips and no other id is affected.
   */
  function HeartClick(favorites: seq<Property>, card: Card): (r: seq<Property>)
    ensures HasId(r, card.property.id) == !HasId(favorites, card.property.id)
    ensures forall id :: id != card.property.id ==> HasId(r, id) == HasId(favorites, id)
    ensures !HasId(favorites, card.property.id) ==> r == favorites + [card.property]
    ensures HasId(favorites, card.property.id) ==> r == RemoveId(favorites, card.property.id)
  {
    var r := Toggle(favorites, card.property);
    forall id | id != card.property.id ensures HasId(r, id) == HasId(favorites, id) {
      RemoveIdKeepsOthersId(r, favorites, card.property.id, id);
    }
    r
  }

  /** "View Detail": `navigate("property_detail/${prop.id}")`. */
  function ViewDetailRoute(card: Card): (route: string)
    ensures route == ReplaceAll(PropertyDetail.Route(), "{propertyId}", Decimal.IntToString(card.property.id))
  {
    DetailRouteBindsTemplate(card.property.id);
    DetailRoute(card.property.id)
  }

  /** The bell in the header: `navigate("notifications")`. */
  const NotificationsRoute: string := "notifications"
}

=== FILE: nav_graph.dfy ===
/**
 * The navigation host (core/navigation/NavGraph.kt): the registered destinations, route
 * resolution, the back stack and the tab-switch policy. The back stack that the navigation
 * library keeps is modelled as a sequence of entries, the last one on top.
 */
module NavGraph {
  import opened Wrappers
  import opened Decimal
  import opened Routes

  /** What a destination's `composable` block shows. */
  datatype Page = HomePage | FavoritesPage | ProfilePlaceholder | DetailPage | NotificationsPage

  /**
   * A registered destination: a route template made of a literal prefix and, optionally,
   * one trailing integer placeholder.
   */
  datatype Destination = Destination(page: Page, prefix: string, argName: Option<string>) {

    function Template(): string
    {
      match argName
      case None => prefix
      case Some(n) => prefix + "{" + n + "}"
    }
  }

  /** The argument bundle of a back-stack entry, restricted to integer arguments. */
  datatype Arguments = Arguments(ints: map<string, int32>)

  /** `Bundle.getInt(key)`: the stored value, or 0 when the key is missing. */
  function GetInt(b: Arguments, key: string): (v: int32)
    ensures key in b.ints ==> v == b.ints[key]
    ensures key !in b.ints ==> v == 0
  {
    if key in b.ints then b.ints[key] else 0
  }

  /** A back-stack entry: the destination and the arguments bound from the route, if any. */
  datatype Entry = Entry(dest: Destination, arguments: Option<Arguments>)

  const HomeDestination := Destination(HomePage, "home", None)
  const FavoritesDestination := Destination(FavoritesPage, "favorites", None)
  const ProfileDestination := Destination(ProfilePlaceholder, "profile", None)
  const DetailDestination := Destination(DetailPage, "property_detail/", Some("propertyId"))

  /** The four `composable(...)` registrations of `MainNavigation`, in order. */
  const AppGraph: seq<Destination> := [HomeDestination, FavoritesDestination, ProfileDestination, DetailDestination]

  /** `startDestination = Screen.Home.route`. */
  const StartRoute: string := Home.Route()

  /** The back stack when the host is first shown. */
  const InitialStack: seq<Entry> := [Entry(HomeDestination, None)]

  /** The registrations carry exactly the routes of the four `Screen` objects. */
  lemma AppGraphRoutes()
    ensures |AppGraph| == 4
    ensures AppGraph[0].Template() == Home.Route()
    ensures AppGraph[1].Template() == Favorites.Route()
    ensures AppGraph[2].Template() == Profile.Route()
    ensures AppGraph[3].Template() == PropertyDetail.Route()
    ensures StartRoute == "home"
  {
  }

  /**
   * Whether a concrete route matches a destination, and the arguments it binds: a literal
   * template matches only itself; a parameterised one matches its prefix followed by a
   * segment that `Integer.parseInt` accepts (the argument is declared `NavType.IntType`).
   */
  function Match(d: Destination, route: string): (m: Option<Option<Arguments>>)
    ensures d.argName.None? ==> (m.Some? <==> route == d.Template()) && (m.Some? ==> m.value.None?)
    ensures d.argName.Some? && m.Some? ==>
      |d.prefix| < |route| && route[..|d.prefix|] == d.prefix && ParseInt(route[|d.prefix|..]).Some? &&
      m.value == Some(Arguments(map[d.argName.value := ParseInt(route[|d.prefix|..]).value]))
    ensures d.argName.Some? && |d.prefix| <= |route| && route[..|d.prefix|] == d.prefix && ParseInt(route[|d.prefix|..]).Some? ==>
      m == Some(Some(Arguments(map[d.argName.value := ParseInt(route[|d.prefix|..]).value])))
  {
    match d.argName
    case None => if route == d.prefix then Some(None) else None
    case Some(n) =>
      if |d.prefix| <= |route| && route[..|d.prefix|] == d.prefix then
        match ParseInt(route[|d.prefix|..])
        case Some(v) => Some(Some(Arguments(map[n := v])))
        case None => None
      else None
  }

  /** The entry that navigating to `route` creates: the first registered destination it matches. */
  function Resolve(graph: seq<Destination>, route: string): (r: Option<Entry>)
    ensures r.None? <==> forall d :: d in graph ==> Match(d, route).None?
    ensures r.Some? ==> r.value.dest in graph && Match(r.value.dest, route) == Some(r.value.arguments)
  {
    if |graph| == 0 then None
    else match Match(graph[0], route)
      case Some(args) => Some(Entry(graph[0], args))
      case None => Resolve(graph[1..], route)
  }

  /** Navigating to a route no destination matches is an error (the library throws). */
  datatype NavError = UnknownRoute(route: string)

  /** `navController.navigate(route)` with no options: push the resolved entry. */
  function Navigate(graph: seq<Destination>, stack: seq<Entry>, route: string): (r: Result<seq<Entry>, NavError>)
    ensures r.Failure? <==> Resolve(graph, route).None?
    ensures r.Failure? ==> r.error == UnknownRoute(route)
    ensures r.Success? ==> |r.value| == |stack| + 1 && r.value[..|stack|] == stack
    ensures r.Success? ==> r.value[|stack|].dest in graph
    ensures r.Success? ==> Match(r.value[|stack|].dest, route) == Some(r.value[|stack|].arguments)
  {
    match Resolve(graph, route)
    case None => Failure(UnknownRoute(route))
    case Some(e) => Success(stack + [e])
  }

  /** `popBackStack()`: drop the top entry; the last remaining entry is left to the host activity. */
  function Back(stack: seq<Entry>): (r: seq<Entry>)
    ensures |stack| > 1 ==> r == stack[..|stack| - 1]
    ensures |stack| <= 1 ==> r == stack
  {
    if |stack| > 1 then stack[..|stack| - 1] else stack
  }

  /** `navBackStackEntry?.destination?.route`: the top entry's route template, not the bound route. */
  function CurrentRoute(stack: seq<Entry>): (r: Option<string>)
    ensures r.None? <==> |stack| == 0
    ensures r.Some? ==> r.value == stack[|stack| - 1].dest.Template()
  {
    if |stack| == 0 then None else Some(stack[|stack| - 1].dest.Template())
  }

  /** The index of the topmost entry whose destination has this route, if any. */
  function LastIndexOfRoute(stack: seq<Entry>, route: string): (k: Option<nat>)
    ensures k.Some? ==> k.value < |stack| && stack[k.value].dest.Template() == route
    ensures k.Some? ==> forall j :: k.value < j < |stack| ==> stack[j].dest.Template() != route
    ensures k.None? ==> forall j :: 0 <= j < |stack| ==> stack[j].dest.Template() != route
  {
    if |stack| == 0 then None
    else if stack[|stack| - 1].dest.Template() == route then Some(|stack| - 1)
    else LastIndexOfRoute(stack[..|stack| - 1], route)
  }

  /** `popUpTo(route)`: pop every entry above the topmost one with this route; nothing when there is none. */
  function PopUpTo(stack: seq<Entry>, route: string): (r: seq<Entry>)
    ensures |r| <= |stack| && r == stack[..|r|]
    ensures |r| > 0 && r != stack ==> r[|r| - 1].dest.Template() == route
    ensures LastIndexOfRoute(stack, route).Some? ==> r == stack[..LastIndexOfRoute(stack, route).value + 1]
    ensures LastIndexOfRoute(stack, route).None? ==> r == stack
  {
    match LastIndexOfRoute(stack, route)
    case Some(k) => stack[..k + 1]
    case None => stack
  }

  /**
   * The bottom bar's `onNavigate`: navigate to the tab's route after popping up to the start
   * destination, with `launchSingleTop` replacing a top entry of the same destination instead
   * of pushing a second copy.
   */
  function NavigateToTab(graph: seq<Destination>, stack: seq<Entry>, tab: Screen): (r: Result<seq<Entry>, NavError>)
    ensures r.Failure? <==> Resolve(graph, tab.Route()).None?
    ensures r.Success? ==> |r.value| >= 1 && r.value[|r.value| - 1] == Resolve(graph, tab.Route()).value
    ensures r.Success? ==> |r.value| <= |stack| + 1
  {
    match Resolve(graph, tab.Route())
    case None => Failure(UnknownRoute(tab.Route()))
    case Some(e) =>
      var popped := PopUpTo(stack, StartRoute);
      if |popped| > 0 && popped[|popped| - 1].dest == e.dest then Success(popped[..|popped| - 1] + [e])
      else Success(popped + [e])
  }

  /**
   * The stacks the app can reach: the start entry at the bottom and no other entry of the
   * start destination above it.
   */
  predicate WellFormed(stack: seq<Entry>)
  {
    && |stack| >= 1
    && stack[0] == Entry(HomeDestination, None)
    && forall i :: 1 <= i < |stack| ==> stack[i].dest.Template() != StartRoute
  }

  /** `backStackEntry.arguments?.getInt("propertyId")?.toString() ?: ""`. */
  function PropertyIdArgument(arguments: Option<Arguments>): (s: string)
    ensures s == "" <==> arguments.None?
    ensures arguments.Some? && "propertyId" in arguments.value.ints ==>
      ParseInt(s) == Some(arguments.value.ints["propertyId"])
    ensures arguments.Some? && "propertyId" !in arguments.value.ints ==> s == "0"
    ensures arguments.Some? ==> s == IntToString(GetInt(arguments.value, "propertyId"))
  {
    match arguments
    case None => ""
    case Some(b) =>
      var v := GetInt(b, "propertyId");
      ParseIntToString(v);
      IntToString(v)
  }

  /** What the host shows for an entry. */
  datatype Content =
    | HomeContent
    | FavoritesContent
    | PlaceholderContent(text: string)
    | DetailContent(propertyId: string)
    | NotificationsContent

  /**
   * The `composable` blocks: Home and Favorites show their screens, the Profile route shows a
   * placeholder text instead of `ProfileScreen`, and the detail route hands its argument on as
   * a string.
   */
  function Show(e: Entry): (c: Content)
    ensures e.dest.page == HomePage ==> c == HomeContent
    ensures e.dest.page == FavoritesPage ==> c == FavoritesContent
    ensures e.dest.page == NotificationsPage ==> c == NotificationsContent
    ensures e.dest.page == ProfilePlaceholder ==> c == PlaceholderContent("Profile Screen")
    ensures e.dest.page == DetailPage ==> c == DetailContent(PropertyIdArgument(e.arguments))
    ensures c.PlaceholderContent? <==> e.dest.page == ProfilePlaceholder
  {
    match e.dest.page
    case HomePage => HomeContent
    case FavoritesPage => FavoritesContent
    case ProfilePlaceholder => PlaceholderContent("Profile Screen")
    case DetailPage => DetailContent(PropertyIdArgument(e.arguments))
    case NotificationsPage => NotificationsContent
  }

  /** A graph that registers at least the app's four destinations, first and in order. */
  predicate ExtendsAppGraph(graph: seq<Destination>)
  {
    |graph| >= 4 && graph[..4] == AppGraph
  }

  /** Resolution tries the destinations in registration order. */
  lemma ResolveFirst(graph: seq<Destination>, route: string)
    requires |graph| > 0
    ensures Match(graph[0], route).Some? ==> Resolve(graph, route) == Some(Entry(graph[0], Match(graph[0], route).value))
    ensures Match(graph[0], route).None? ==> Resolve(graph, route) == Resolve(graph[1..], route)
  {
  }

  /** The detail destination binds the parsed id of a built detail route. */
  lemma MatchDetailRoute(id: int32)
    ensures Match(DetailDestination, DetailRoute(id)) == Some(Some(Arguments(map["propertyId" := id])))
  {
    var route := DetailRoute(id);
    ParseIntToString(id);
    assert route[..16] == "property_detail/" && route[16..] == IntToString(id);
  }

  /**
   * Build then parse: the route built for any `Int` id resolves to the detail destination
   * with that id bound as `propertyId`.
   */
  lemma ResolveDetailRoute(graph: seq<Destination>, id: int32)
    requires ExtendsAppGraph(graph)
    ensures Resolve(graph, DetailRoute(id)) == Some(Entry(DetailDestination, Some(Arguments(map["propertyId" := id]))))
  {
    var route := DetailRoute(id);
    var g1 := graph[1..];
    var g2 := g1[1..];
    var g3 := g2[1..];
    assert graph[0] == HomeDestination && g1[0] == FavoritesDestination;
    assert g2[0] == ProfileDestination && g3[0] == DetailDestination;
    assert |route| > 16 by { assert route == "property_detail/" + IntToString(id); }
    assert Match(HomeDestination, route).None?;
    assert Match(FavoritesDestination, route).None?;
    assert Match(ProfileDestination, route).None?;
    ResolveFirst(graph, route);
    assert Resolve(graph, route) == Resolve(g1, route);
    ResolveFirst(g1, route);
    assert Resolve(g1, route) == Resolve(g2, route);
    ResolveFirst(g2, route);
    assert Resolve(g2, route) == Resolve(g3, route);
    MatchDetailRoute(id);
    ResolveFirst(g3, route);
  }

  /** Each tab's route resolves to that tab's own destination, with no arguments. */
  lemma ResolveTabRoute(graph: seq<Destination>, tab: Screen)
    requires ExtendsAppGraph(graph) && tab in BottomNavItems
    ensures Resolve(graph, tab.Route()).Some?
    ensures Resolve(graph, tab.Route()).value.arguments.None?
    ensures Resolve(graph, tab.Route()).value.dest.Template() == tab.Route()
    ensures Resolve(graph, tab.Route()).value.dest == AppGraph[if tab.Home? then 0 else if tab.Favorites? then 1 else 2]
  {
    var route := tab.Route();
    var g1 := graph[1..];
    var g2 := g1[1..];
    assert graph[0] == HomeDestination && g1[0] == FavoritesDestination && g2[0] == ProfileDestination;
    ResolveFirst(graph, route);
    ResolveFirst(g1, route);
    ResolveFirst(g2, route);
  }

  /** Popping up to the start route on a reachable stack leaves only the start entry. */
  lemma PopUpToStartOnWellFormed(stack: seq<Entry>)
    requires WellFormed(stack)
    ensures PopUpTo(stack, StartRoute) == [Entry(HomeDestination, None)]
  {
    var k := LastIndexOfRoute(stack, StartRoute);
    assert stack[0].dest.Template() == StartRoute;
    assert k.Some? && k.value == 0;
  }

  /**
   * A tab switch from a reachable stack leaves the start entry alone (Home tab) or the start
   * entry with the chosen tab on top: never more than two entries, never two copies of one
   * destination.
   */
  lemma TabSwitchBounded(graph: seq<Destination>, stack: seq<Entry>, tab: Screen)
    requires ExtendsAppGraph(graph) && WellFormed(stack) && tab in BottomNavItems
    ensures NavigateToTab(graph, stack, tab).Success?
    ensures WellFormed(NavigateToTab(graph, stack, tab).value)
    ensures |NavigateToTab(graph, stack, tab).value| == if tab.Home? then 1 else 2
    ensures CurrentRoute(NavigateToTab(graph, stack, tab).value) == Some(tab.Route())
  {
    ResolveTabRoute(graph, tab);
    PopUpToStartOnWellFormed(stack);
    var r := NavigateToTab(graph, stack, tab).value;
    if !tab.Home? {
      RoutesDistinct(tab, Home);
      assert r == [Entry(HomeDestination, None), Resolve(graph, tab.Route()).value];
    }
  }

  /** Applies the tab clicks in order, stopping at the first failure. */
  function TabSwitches(graph: seq<Destination>, stack: seq<Entry>, tabs: seq<Screen>): Result<seq<Entry>, NavError>
    decreases |tabs|
  {
    if |tabs| == 0 then Success(stack)
    else match NavigateToTab(graph, stack, tabs[0])
      case Failure(e) => Failure(e)
      case Success(next) => TabSwitches(graph, next, tabs[1..])
  }

  /** However many tab switches follow one another, the stack never grows beyond the start entry plus one tab. */
  lemma {:induction false} RepeatedTabSwitchesBounded(graph: seq<Destination>, stack: seq<Entry>, tabs: seq<Screen>)
    requires ExtendsAppGraph(graph) && WellFormed(stack)
    requires forall i :: 0 <= i < |tabs| ==> tabs[i] in BottomNavItems
    ensures TabSwitches(graph, stack, tabs).Success?
    ensures WellFormed(TabSwitches(graph, stack, tabs).value)
    ensures |tabs| > 0 ==> |TabSwitches(graph, stack, tabs).value| <= 2
    decreases |tabs|
  {
    if |tabs| > 0 {
      TabSwitchBounded(graph, stack, tabs[0]);
      var next := NavigateToTab(graph, stack, tabs[0]).value;
      RepeatedTabSwitchesBounded(graph, next, tabs[1..]);
      if |tabs| > 1 {
        assert tabs[1..][0] in BottomNavItems;
        TabSwitchBounded(graph, next, tabs[1]);
      }
    }
  }

  /** Navigating forward and then back returns exactly to the previous stack, arguments included. */
  lemma NavigateThenBack(graph: seq<Destination>, stack: seq<Entry>, route: string)
    requires |stack| >= 1 && Navigate(graph, stack, route).Success?
    ensures Back(Navigate(graph, stack, route).value) == stack
  {
  }

  /** A plain navigation to a route other than the start route keeps the stack reachable. */
  /** The host starts on a reachable stack: just the start entry. */
  lemma InitialWellFormed()
    ensures WellFormed(InitialStack)
  {
  }

  /** A back button keeps the stack reachable: popping never removes the start entry. */
  lemma BackKeepsWellFormed(stack: seq<Entry>)
    requires WellFormed(stack)
    ensures WellFormed(Back(stack))
  {
  }

  lemma NavigateKeepsWellFormed(graph: seq<Destination>, stack: seq<Entry>, route: string)
    requires WellFormed(stack) && Navigate(graph, stack, route).Success?
    requires Resolve(graph, route).value.dest.Template() != StartRoute
    ensures WellFormed(Navigate(graph, stack, route).value)
  {
    var r := Navigate(graph, stack, route).value;
    forall i | 1 <= i < |r| ensures r[i].dest.Template() != StartRoute {
      if i < |stack| {
        assert r[i] == stack[i];
      }
    }
  }

  /**
   * The graph with the notification screen registered under the route the home header
   * navigates to; otherwise the same registrations in the same order.
   */
  const CorrectedGraph: seq<Destination> := AppGraph + [Destination(NotificationsPage, "notifications", None)]
}

=== FILE: notification_screen.dfy ===
/**
 * The notification list (feature/notification/NotificationScreen.kt): unread count, badge,
 * empty state, unread dot, and the icon and colour of each notification type.
 */
module NotificationScreen {
  import opened Wrappers
  import opened Decimal

  /** `enum class NotificationType`. */
  datatype NotificationType = Property | Price | Appointment | Welcome | Market

  /** `data class Notification`. */
  datatype Notification = Notification(
    id: int32,
    title: string,
    message: string,
    timestamp: string,
    isRead: bool,
    kind: NotificationType
  )

  /** The sample data the screen shows. */
  const SampleNotifications: seq<Notification> := [
    Notification(1, "New Property Available", "A new luxury villa has been listed in your area. Check it out!", "2 hours ago", false, Property),
    Notification(2, "Price Drop Alert", "The Modern Villa you viewed has a price reduction of $10,000!", "1 day ago", false, Price),
    Notification(3, "Appointment Reminder", "Your property viewing appointment is tomorrow at 2 PM.", "2 days ago", true, Appointment),
    Notification(4, "Welcome to RealEstate App", "Thanks for joining! Explore properties and find your dream home.", "1 week ago", true, Welcome),
    Notification(5, "Market Update", "Property prices in California have increased by 3% this month.", "1 week ago", true, Market)
  ]

  /** `notifications.count { !it.isRead }`. */
  function UnreadCount(s: seq<Notification>): (n: nat)
    ensures n <= |s|
    ensures n == 0 <==> forall i :: 0 <= i < |s| ==> s[i].isRead
    ensures n == |s| <==> forall i :: 0 <= i < |s| ==> !s[i].isRead
  {
    if |s| == 0 then 0 else (if s[0].isRead then 0 else 1) + UnreadCount(s[1..])
  }

  /** Counting unread notifications is additive over concatenation. */
  lemma {:induction false} UnreadCountAppend(a: seq<Notification>, b: seq<Notification>)
    ensures UnreadCount(a + b) == UnreadCount(a) + UnreadCount(b)
  {
    if |a| > 0 {
      assert (a + b)[1..] == a[1..] + b;
      UnreadCountAppend(a[1..], b);
    } else {
      assert a + b == b;
    }
  }

  /** The top-bar badge: the unread count as text, present only when it is positive. */
  function Badge(s: seq<Notification>): (r: Option<string>)
    ensures r.Some? <==> exists i :: 0 <= i < |s| && !s[i].isRead
    ensures r.Some? && |s| < 0x8000_0000 ==> ParseInt(r.value) == Some(UnreadCount(s))
    ensures r.Some? ==> r.value == IntToString(UnreadCount(s))
  {
    var n := UnreadCount(s);
    if n > 0 then
      CountTextParses(n);
      Some(IntToString(n))
    else None
  }

  lemma CountTextParses(n: nat)
    ensures n < 0x8000_0000 ==> ParseInt(IntToString(n)) == Some(n)
  {
    if n < 0x8000_0000 {
      ParseIntToString(n);
    }
  }

  /** An icon of the Material set, by name. */
  datatype Icon = Notifications | Star | Info | Person | LocationOn

  /** `getNotificationIcon`: defined for every type. */
  function IconFor(t: NotificationType): (i: Icon)
    ensures TypeOfIcon(i) == t
  {
    match t
    case Property => Notifications
    case Price => Star
    case Appointment => Info
    case Welcome => Person
    case Market => LocationOn
  }

  /** The type an icon stands for: each icon is used by one type only. */
  function TypeOfIcon(i: Icon): NotificationType
  {
    match i
    case Notifications => Property
    case Star => Price
    case Info => Appointment
    case Person => Welcome
    case LocationOn => Market
  }

  /** `getNotificationColor`: a fully opaque ARGB colour for every type. */
  function ColorFor(t: NotificationType): (c: int)
    ensures 0xFF00_0000 <= c <= 0xFFFF_FFFF
  {
    match t
    case Property => 0xFF4CAF50
    case Price => 0xFFFF9800
    case Appointment => 0xFF2196F3
    case Welcome => 0xFF9C27B0
    case Market => 0xFF607D8B
  }

  /** Different types get different icons and different colours. */
  lemma TypeStylesDistinct(a: NotificationType, b: NotificationType)
    requires a != b
    ensures IconFor(a) != IconFor(b) && ColorFor(a) != ColorFor(b)
  {
  }

  /** One row of the list. */
  datatype Item = Item(notification: Notification, icon: Icon, color: int, unreadDot: bool)

  function Items(s: seq<Notification>): (r: seq<Item>)
    ensures |r| == |s|
    ensures forall i :: 0 <= i < |r| ==> r[i].notification == s[i]
    ensures forall i :: 0 <= i < |r| ==> (r[i].unreadDot <==> !s[i].isRead)
    ensures forall i :: 0 <= i < |r| ==> r[i].icon == IconFor(s[i].kind) && r[i].color == ColorFor(s[i].kind)
  {
    if |s| == 0 then []
    else [Item(s[0], IconFor(s[0].kind), ColorFor(s[0].kind), !s[0].isRead)] + Items(s[1..])
  }

  /** The screen body: the empty state or one item per notification. */
  datatype Body = EmptyState | ItemList(items: seq<Item>)

  function View(s: seq<Notification>): (b: Body)
    ensures b.EmptyState? <==> |s| == 0
    ensures b.ItemList? ==> |b.items| == |s|
    ensures b.ItemList? ==> forall i :: 0 <= i < |s| ==> b.items[i].notification == s[i]
    ensures b.ItemList? ==> forall i :: 0 <= i < |s| ==> (b.items[i].unreadDot <==> !s[i].isRead)
  {
    if |s| == 0 then EmptyState else ItemList(Items(s))
  }

  /** The sample: five notifications with distinct ids 1 to 5, two unread, so the badge reads "2". */
  lemma SampleFacts()
    ensures |SampleNotifications| == 5
    ensures forall i :: 0 <= i < 5 ==> SampleNotifications[i].id == i + 1
    ensures UnreadCount(SampleNotifications) == 2
    ensures Badge(SampleNotifications) == Some("2")
  {
    var s := SampleNotifications;
    assert UnreadCount(s[4..]) == 0;
    assert s[3..][1..] == s[4..];
    assert UnreadCount(s[3..]) == 0;
    assert s[2..][1..] == s[3..];
    assert UnreadCount(s[2..]) == 0;
    assert s[1..][1..] == s[2..];
    assert UnreadCount(s[1..]) == 1;
    assert UnreadCount(s) == 2;
    assert NatToDigits(2) == [DigitChar(2)];
  }
}

=== FILE: profile_screen.dfy ===
/**
 * The profile screen (feature/profile/ProfileScreen.kt). The navigation graph never shows it
 * (the Profile route renders a placeholder), but its favourites section is modelled as written.
 */
module ProfileScreen {
  import opened Wrappers
  import opened PropertyModel
  import opened Routes

  /** A small favourite card and the route its click navigates to. */
  datatype FavoriteCard = FavoriteCard(property: Property, route: string)

  function FavoriteCards(favorites: seq<Property>): (r: seq<FavoriteCard>)
    ensures |r| == |favorites|
    ensures forall i :: 0 <= i < |r| ==> r[i].property == favorites[i] && r[i].route == DetailRoute(favorites[i].id)
  {
    if |favorites| == 0 then []
    else [FavoriteCard(favorites[0], DetailRoute(favorites[0].id))] + FavoriteCards(favorites[1..])
  }

  /** The "My Favorites" section: shown only for a non-empty store, one card per entry in stored order. */
  function FavoritesSection(favorites: seq<Property>): (r: Option<seq<FavoriteCard>>)
    ensures r.Some? <==> |favorites| > 0
    ensures r.Some? ==> |r.value| == |favorites|
    ensures r.Some? ==> forall i :: 0 <= i < |favorites| ==>
      r.value[i].property == favorites[i] && r.value[i].route == DetailRoute(favorites[i].id)
  {
    if |favorites| > 0 then Some(FavoriteCards(favorites)) else None
  }

  /** The "Favorites" option card: `navigate("favorites")`. */
  const FavoritesOptionRoute: string := "favorites"

  /** The option's literal route is the Favorites tab's route. */
  lemma FavoritesOptionIsTabRoute()
    ensures FavoritesOptionRoute == Favorites.Route()
    ensures Favorites in BottomNavItems
  {
  }
}

=== FILE: property.dfy ===
/** The listing record shared by every screen (core/model/Property.kt). */
module PropertyModel {
  import opened Decimal

  /** Kotlin's nine-field `data class Property`; equality is structural, as for a data class. */
  datatype Property = Property(
    id: int32,
    title: string,
    address: string,
    price: int32,
    beds: int32,
    baths: int32,
    area: int32,
    imageName: string,
    isGarage: bool
  )

  /** No two entries of the list share an id. */
  predicate DistinctIds(s: seq<Property>)
  {
    forall i, j :: 0 <= i < j < |s| ==> s[i].id != s[j].id
  }
}

=== FILE: property_detail_screen.dfy ===
/**
 * The detail screen (feature/propertydetail/PropertyDetailScreen.kt): its own copy of the
 * catalog, the lookup of the route argument, the favourite flag and the heart button.
 */
module PropertyDetailScreen {
  import opened Wrappers
  import opened Decimal
  import opened PropertyModel
  import opened Favorites

  /** The screen's hard-coded listing. */
  const Properties: seq<Property> := [
    Property(1, "Modern Villa", "123 Maple St, California", 250000, 4, 3, 2400, "pic_1", true),
    Property(2, "Luxury Apartment", "456 Oak Ave, New York", 180000, 2, 2, 1200, "pic_2", false),
    Property(3, "Cosy House", "789 Pine Rd, Texas", 320000, 3, 2, 1800, "pic_3", true),
    Property(4, "Skyline Penthouse", "101 View Blvd, Miami", 550000, 5, 4, 3500, "pic_4", true)
  ]

  /** The position of the first entry whose id, as decimal text, equals `key`. */
  function FindIndex(props: seq<Property>, key: string): (k: Option<nat>)
    ensures k.Some? ==> k.value < |props| && IntToString(props[k.value].id) == key
    ensures k.Some? ==> forall j :: 0 <= j < k.value ==> IntToString(props[j].id) != key
    ensures k.None? ==> forall j :: 0 <= j < |props| ==> IntToString(props[j].id) != key
  {
    if |props| == 0 then None
    else if IntToString(props[0].id) == key then Some(0)
    else match FindIndex(props[1..], key)
      case Some(k) => Some(k + 1)
      case None => None
  }

  /** `properties.find { it.id.toString() == propertyId }`: exact string comparison. */
  function Find(props: seq<Property>, key: string): (r: Option<Property>)
    ensures r.None? <==> forall p :: p in props ==> IntToString(p.id) != key
    ensures r.Some? ==> r.value in props && IntToString(r.value.id) == key
  {
    match FindIndex(props, key)
    case Some(k) => Some(props[k])
    case None => None
  }

  /** In a list with distinct ids, looking up an entry's own id text finds that entry. */
  lemma FindOwnId(props: seq<Property>, i: nat)
    requires DistinctIds(props) && i < |props|
    ensures Find(props, IntToString(props[i].id)) == Some(props[i])
  {
    var k := FindIndex(props, IntToString(props[i].id));
    IntToStringInjective(props[k.value].id, props[i].id);
  }

  /** The catalog holds four listings with ids 1, 2, 3 and 4, in that order. */
  lemma CatalogShape()
    ensures |Properties| == 4
    ensures forall i :: 0 <= i < |Properties| ==> Properties[i].id == i + 1
    ensures DistinctIds(Properties)
  {
  }

  /** The decimal text of the catalog's ids. */
  lemma SmallIdTexts()
    ensures IntToString(1) == "1" && IntToString(2) == "2"
    ensures IntToString(3) == "3" && IntToString(4) == "4"
  {
    assert NatToDigits(1) == [DigitChar(1)];
    assert NatToDigits(2) == [DigitChar(2)];
    assert NatToDigits(3) == [DigitChar(3)];
    assert NatToDigits(4) == [DigitChar(4)];
  }

  /** Exactly the four strings "1" to "4" find a listing; "", "5", "01" or "abc" find none. */
  lemma FindKeys(key: string)
    ensures Find(Properties, key).Some? <==> key in {"1", "2", "3", "4"}
    ensures key in {"1", "2", "3", "4"} ==> Find(Properties, key).value == Properties[DigitValue(key[0]) - 1]
  {
    SmallIdTexts();
    if key in {"1", "2", "3", "4"} {
      CatalogShape();
      FindOwnId(Properties, DigitValue(key[0]) - 1);
    }
  }

  /**
   * `favoriteProperties.any { it.id == property?.id }`: Kotlin compares each stored `Int` id with
   * a nullable one, so nothing matches when no listing was found.
   */
  function AnyIdEquals(favorites: seq<Property>, id: Option<int>): (b: bool)
    ensures b <==> id.Some? && HasId(favorites, id.value)
  {
    if |favorites| == 0 then false
    else Some(favorites[0].id as int) == id || AnyIdEquals(favorites[1..], id)
  }

  /** The optional id of an optional listing: Kotlin's `property?.id`. */
  function IdOf(p: Option<Property>): Option<int>
  {
    match p
    case Some(q) => Some(q.id as int)
    case None => None
  }

  /** The image box: the resolved drawable, or the grey "image not found" panel when the resolver returns 0. */
  datatype ImageSlot = Picture(drawableId: int) | ImageNotFound

  /** What the screen shows. */
  datatype DetailView =
    | NotFound
    | Details(property: Property, isFavorite: bool, image: ImageSlot)

  /**
   * The screen for a route argument and a favourites list. The drawable lookup by image name
   * is an Android resource call and is passed in.
   */
  function Render(propertyId: string, favorites: seq<Property>, drawableIdOf: string -> int): (v: DetailView)
    ensures v.NotFound? <==> forall p :: p in Properties ==> IntToString(p.id) != propertyId
    ensures v.Details? ==> v.property in Properties && IntToString(v.property.id) == propertyId
    ensures v.Details? ==> (v.isFavorite <==> HasId(favorites, v.property.id))
    ensures v.Details? ==> (v.image.Picture? <==> drawableIdOf(v.property.imageName) != 0)
  {
    var found := Find(Properties, propertyId);
    var isFavorite := AnyIdEquals(favorites, IdOf(found));
    match found
    case None => NotFound
    case Some(p) =>
      var drawableId := drawableIdOf(p.imageName);
      Details(p, isFavorite, if drawableId != 0 then Picture(drawableId) else ImageNotFound)
  }

  /**
   * The heart button: toggles the catalog entry that was found, not a stored copy. The
   * not-found view has no heart, so the store is left as it is.
   */
  function HeartClick(propertyId: string, favorites: seq<Property>): (r: seq<Property>)
    ensures Find(Properties, propertyId).None? ==> r == favorites
    ensures Find(Properties, propertyId).Some? ==>
      var p := Find(Properties, propertyId).value;
      && HasId(r, p.id) == !HasId(favorites, p.id)
      && (!HasId(favorites, p.id) ==> r == favorites + [p])
      && RemoveId(r, p.id) == RemoveId(favorites, p.id)
  {
    match Find(Properties, propertyId)
    case None => favorites
    case Some(p) => Toggle(favorites, p)
  }

  /** After a heart click the screen's own favourite flag is the opposite of before. */
  lemma HeartClickFlipsFlag(propertyId: string, favorites: seq<Property>, drawableIdOf: string -> int)
    requires Render(propertyId, favorites, drawableIdOf).Details?
    ensures Render(propertyId, HeartClick(propertyId, favorites), drawableIdOf).isFavorite
         == !Render(propertyId, favorites, drawableIdOf).isFavorite
  {
  }
}

=== FILE: routes.dfy ===
/** The screens and their route strings (core/navigation/Screen.kt). */
module Routes {
  import opened Decimal

  /** The sealed class `Screen`: one case per object, each with its route template. */
  datatype Screen = Home | Favorites | Profile | PropertyDetail {

    function Route(): string
    {
      match this
      case Home => "home"
      case Favorites => "favorites"
      case Profile => "profile"
      case PropertyDetail => "property_detail/{propertyId}"
    }
  }

  /** `Screen.bottomNavItems`: the tabs of the bottom bar, in display order. */
  const BottomNavItems: seq<Screen> := [Home, Favorites, Profile]

  /** Replaces every occurrence of `pattern` in `s` by `value`, scanning left to right. */
  function ReplaceAll(s: string, pattern: string, value: string): string
    requires |pattern| > 0
    decreases |s|
  {
    if |s| < |pattern| then s
    else if s[..|pattern|] == pattern then value + ReplaceAll(s[|pattern|..], pattern, value)
    else [s[0]] + ReplaceAll(s[1..], pattern, value)
  }

  /**
   * A template made of a brace-free prefix and one placeholder binds to the prefix followed
   * by the value.
   */
  lemma {:induction false} BindTrailingPlaceholder(prefix: string, placeholder: string, value: string)
    requires |placeholder| > 0 && placeholder[0] == '{'
    requires forall i :: 0 <= i < |prefix| ==> prefix[i] != '{'
    ensures ReplaceAll(prefix + placeholder, placeholder, value) == prefix + value
    decreases |prefix|
  {
    var s := prefix + placeholder;
    if |prefix| == 0 {
      assert s == placeholder;
      assert s[|placeholder|..] == "";
    } else {
      assert s[..|placeholder|][0] == prefix[0] != placeholder[0];
      assert s[1..] == prefix[1..] + placeholder;
      BindTrailingPlaceholder(prefix[1..], placeholder, value);
      assert [s[0]] + (prefix[1..] + value) == prefix + value;
    }
  }

  /** The route the screens build to open a property: "property_detail/${id}". */
  function DetailRoute(id: int): (r: string)
    ensures |r| > 16 && r[..16] == "property_detail/" && r[16..] == IntToString(id)
  {
    "property_detail/" + IntToString(id)
  }

  /**
   * The built route is the detail template with `{propertyId}` bound to the id's decimal
   * text, and it splits back into the template's prefix and that text.
   */
  lemma DetailRouteBindsTemplate(id: int)
    ensures DetailRoute(id) == ReplaceAll(PropertyDetail.Route(), "{propertyId}", IntToString(id))
    ensures |DetailRoute(id)| > 16 && DetailRoute(id)[..16] == "property_detail/" && DetailRoute(id)[16..] == IntToString(id)
  {
    var prefix := "property_detail/";
    assert PropertyDetail.Route() == prefix + "{propertyId}";
    BindTrailingPlaceholder(prefix, "{propertyId}", IntToString(id));
  }

  /** The four route templates are pairwise distinct. */
  lemma RoutesDistinct(a: Screen, b: Screen)
    requires a != b
    ensures a.Route() != b.Route()
  {
    if a.PropertyDetail? || b.PropertyDetail? {
      assert |PropertyDetail.Route()| == 28;
    } else {
      assert a.Route()[0] != b.Route()[0];
    }
  }

  /** The bottom bar shows Home, Favorites and Profile, never the detail screen. */
  lemma BottomNavItemsAreTabs()
    ensures |BottomNavItems| == 3
    ensures forall s: Screen :: s in BottomNavItems <==> !s.PropertyDetail?
  {
  }
}

=== FILE: wrappers.dfy ===
/** Optional values and results, standing in for Kotlin's nullable types and thrown exceptions. */
module Wrappers {

  /** A value that may be absent: Kotlin's `T?`. */
  datatype Option<+T> = None | Some(value: T)

  /** The outcome of an operation that can fail with an error value. */
  datatype Result<+R, +E> = Success(value: R) | Failure(error: E)
}
